=== FILE: README.md ===
# Eras of Arda bot — a verified model of its pure core

This project models, in Dafny, the logic of the Eras of Arda Discord bot
that does not depend on Discord, the database or the web:

- **Custom commands** (`src/commands/custom_commands.rs`). A guild stores a
  JSON template under a name. Invoking it runs this pipeline:
  1. The stored body is encoded: every `$` gets a zero-width-space marker
     (U+200B) in front of it, except an authored `\$`.
  2. The arguments are escaped and put in place of the placeholders
     marker-`$0`, marker-`$1`, and so on.
  3. The text is decoded (`\$` becomes `$`) and parsed.
  4. A privilege gate runs on the parsed `type` field.
  5. `default_args` fill the placeholders that no argument reached.
  6. The message is announced. The invoking message is deleted when
     `self_delete` is true.

  The feature also covers defining, removing and displaying commands.
  Modules `TemplateCodec` (the text transformations) and `CustomCommands`
  (the command runs) model it.
- **Checks and hooks** (`src/check.rs`): the blacklist, admin, Minecraft-server
  and Eras-of-Arda-guild checks, and what the dispatch-error and after hooks
  say to the user and print. Module `Checks`.
- **General commands** (`src/commands/general.rs`), module `General`:
  - the digit grouping of large numbers;
  - the CurseForge project choice, file link and version label;
  - the Forge version choice;
  - whom `user_info` describes.
- **Wiki commands and tables** (`src/commands/wiki.rs`,
  `src/api/wiki/structures.rs`): the language word parser with its rewind
  rule, the choice between search and main page, the per-wiki sites and API
  addresses, and the main page of each namespace. Modules `WikiCommands`
  and `WikiStructures`.
- **Floppa images** (`src/database/floppa.rs`): the wrap-around index
  formula in signed 64-bit arithmetic with Rust's truncating `%`, and
  insert-if-absent. Module `Floppa`.

The supporting modules are:

- `Strings`: Rust's `str::replace`, the trims, ASCII lower-casing, decimal
  text and UTF-8 length. ASCII lower-casing is used only where the words
  compared are ASCII; custom-command names are lower-cased by a parameter
  standing for Rust's full Unicode `to_lowercase`.
- `JsonValues`: the shape of a JSON value, indexing, and the decoding of
  JSON string literals.
- `Wrappers`: `Option`.

The chat platform is reduced to the list of effects a run produces: an
announcement, a deletion, a DM, a reply, a print. The store, the
permission queries, the blacklist, the JSON parser, the pretty-printer and
Unicode lower-casing are function parameters.

Several places where the code does something a reader might not expect
are modelled as the code behaves:

- The U+200B marker is never stripped from the announced text.
- `default_args` is not removed before announcing.
- The admin warning (`failure!`) does not stop the run.
- Default values are only `$`-escaped.
- The body is parsed a second time only when the placeholder for index
  `argc` was present before the defaults were applied.
- Remove and display use the name as typed, without lower-casing.

## Model

| member | source | states |
|---|---|---|
| TemplateCodec.Encode | src/commands/custom_commands.rs:28-35 | after encoding every `$` is preceded by the marker or a backslash; a body without `$` is unchanged |
| TemplateCodec.EncodeAgreesWithReference | src/commands/custom_commands.rs:28-35 | the two chained replaces equal an independent char-by-char reading: authored `\$` kept, every other `$` marked |
| TemplateCodec.MarkedMatchesReference | src/commands/custom_commands.rs:31-32 | un-marking `\`-marker-`$` after marking every `$` gives exactly the char-by-char reading |
| TemplateCodec.EncodeRefConcat | src/commands/custom_commands.rs:28-35 | the encoding of two texts is the concatenation of their encodings when the first does not end in a backslash |
| TemplateCodec.AuthoredEscapeKept | src/commands/custom_commands.rs:32 | an authored `\$` comes out of the encoding as `\$`, unmarked, with the text around it encoded on its own |
| TemplateCodec.DecodeEncode | src/commands/custom_commands.rs:28-50 | encoding then decoding with no argument gives the reference rendering: authored `\$` becomes `$`, other `$` keep the marker |
| TemplateCodec.DecodeEncodeRef | src/commands/custom_commands.rs:50 | decoding the reference encoding gives the reference rendering, for every body |
| TemplateCodec.RoundTripWithoutDollar | src/commands/custom_commands.rs:28-50 | a `$`-free body is unchanged by encoding and by decoding, so the round trip is the identity |
| TemplateCodec.EscapeArg | src/commands/custom_commands.rs:41-46 | every `$` of an escaped argument has a backslash before it, so no marked dollar (placeholder prefix) is in it |
| TemplateCodec.EscapeValueIsCharwise | src/commands/custom_commands.rs:42-46 | the five chained replaces, in the source's order, act char by char: `$` becomes backslash-backslash-`$`, `@` gets the marker, `\` is doubled, newline and `"` are escaped |
| TemplateCodec.EscapeDefault | src/commands/custom_commands.rs:84 | a default value after its `$`-escape has every `$` preceded by a backslash |
| TemplateCodec.Placeholder | src/commands/custom_commands.rs:38 | a placeholder starts with marker-`$` and ends in a digit, so neither a marker nor a backslash |
| TemplateCodec.ReplaceKeepsGuard | src/commands/custom_commands.rs:37-47 | replacing a pattern that does not end in a marker or backslash by a guarded value keeps every `$` guarded |
| TemplateCodec.ReplaceAddsNoMarks | src/commands/custom_commands.rs:37-47 | replacing a placeholder by a value without marked dollars never increases the number of marked dollars |
| TemplateCodec.FillFromIsSafe | src/commands/custom_commands.rs:36-48 | substituting escaped values keeps every `$` marked or escaped and adds no marked dollar, so no value can become a placeholder |
| TemplateCodec.ContainsPlaceholderHasMark | src/commands/custom_commands.rs:38 | a text containing a placeholder contains a marked dollar |
| TemplateCodec.FillFromWithoutMarks | src/commands/custom_commands.rs:36-48 | a body with no marked dollar is left unchanged by the substitution loop |
| TemplateCodec.PlaceholderPrefixClash | src/commands/custom_commands.rs:37-38 | `str::replace` does not look past a match, so substituting index 1 also rewrites the front of placeholder 10 |
| TemplateCodec.DollarArgumentBreaksJson | src/commands/custom_commands.rs:42-44 | as written, the argument `$` becomes `\\$`, decodes to `\$`, and that is not a valid JSON string escape |
| TemplateCodec.QuoteDefaultBreaksJson | src/commands/custom_commands.rs:84 | as written, the default `"` is put into the JSON text raw and ends the string literal early |
| TemplateCodec.FixedValueSurvives | src/commands/custom_commands.rs:41-50 | with the corrected escape, decoding and then reading the JSON string gives back the value, with mentions defused |
| TemplateCodec.FixedRoundTrip | src/commands/custom_commands.rs:41-50 | for every text whose only control character is newline, the corrected value escape followed by decoding and JSON string reading gives the text back with mentions defused |
| TemplateCodec.EscapeArgFixed | src/commands/custom_commands.rs:41-46 | the corrected argument escape keeps every `$` escaped with no marked dollar, and for text whose only control character is newline it reads back as the quote-trimmed argument with mentions defused |
| TemplateCodec.EscapeDefaultFixed | src/commands/custom_commands.rs:84 | the corrected default escape keeps every `$` escaped with no marked dollar, and for text whose only control character is newline it reads back as the default with mentions defused |
| CustomCommands.PrivilegeGate | src/commands/custom_commands.rs:52-74 | denial happens exactly for type "meme" from an unprivileged caller whose blacklist lookup says listed or fails; the admin warning happens exactly for type "admin" from an unprivileged caller |
| CustomCommands.ArgValues | src/commands/custom_commands.rs:36-47 | argument `j` becomes the escaped value for placeholder `j`, and every value is escaped |
| CustomCommands.ExpandArgs | src/commands/custom_commands.rs:28-48 | the filled body keeps every `$` guarded and has no more marked dollars than the encoded body |
| CustomCommands.DefaultValues | src/commands/custom_commands.rs:77-87 | the defaults from index `argc` on fill placeholders `argc`, `argc+1`, … in order; a non-string default gives no value but uses up its index |
| CustomCommands.ApplyDefaults | src/commands/custom_commands.rs:76-91 | the first parse stands when the `argc` placeholder was not in the body before the loop or `default_args` is not an array; any other result is the parse of the body with the defaults filled in |
| CustomCommands.LaterPlaceholderNotReparsed | src/commands/custom_commands.rs:76-90 | with no argument, a body using `$1` but not `$0` is never parsed again, whatever the defaults put in |
| CustomCommands.SelfDelete | src/commands/custom_commands.rs:92 | self-deletion is asked exactly by the JSON boolean true; a missing or non-boolean field counts as false |
| CustomCommands.Announcement | src/commands/custom_commands.rs:93-96 | the announcement comes first, and the deletion follows exactly when `self_delete` is true |
| CustomCommands.Proceed | src/commands/custom_commands.rs:70-96 | a run past the gate gives the admin warning first exactly when the gate warned, then announces the final message and nothing else, deleting the invocation right after exactly on `self_delete`; it sends no DM, and it succeeds exactly when the final message parsed |
| CustomCommands.Gated | src/commands/custom_commands.rs:52-96 | after the first parse, the caller is refused by DM exactly when the gate denies, and then the invocation is deleted and nothing is announced; otherwise the effects are exactly the admin warning when the gate warned, then the announcement of the message with the defaults applied and the deletion only on `self_delete`, and the run succeeds exactly when that parse succeeded |
| CustomCommands.CustomCommand | src/commands/custom_commands.rs:24-101 | the name is looked up after Unicode lower-casing (a parameter); no name does nothing and fails; an unknown name does nothing and succeeds; a stored body is expanded with the arguments, decoded and parsed, and a failed parse ends the run with an error and no effect; the DM happens exactly when the gate sees type "meme" from an unprivileged, blocked caller, and then the run is exactly the deletion and the DM and succeeds; otherwise the effects are exactly the admin warning for an unprivileged "admin" run, then the announcement of the first parse with the defaults applied and the deletion only on `self_delete`, and the run succeeds exactly when the re-parse (if any) succeeded; a privileged caller gets no DM and no failure reply |
| CustomCommands.ArgumentsIgnoredWithoutDollar | src/commands/custom_commands.rs:28-48 | a stored body without `$` ignores its arguments: running it with arguments is the same run as without |
| CustomCommands.SinglePlaceholderFilled | src/commands/custom_commands.rs:28-48 | a body with a single `$0` gets the escaped argument exactly there, and the text around it is kept |
| CustomCommands.NewEntry | src/commands/custom_commands.rs:122-126 | the stored body is the pretty-printed message with the `documentation` key taken out and every other field kept; the description is that field when it is a string |
| CustomCommands.Define | src/commands/custom_commands.rs:105-154 | the name is lower-cased with Unicode lower-casing (a parameter); a reserved name is refused without storing; a write that lands stores exactly the new entry under the lower-cased name and nothing else, and a failed write changes nothing; success is reported exactly when the write landed and the confirming re-read found the name, so a landed write whose re-read fails is kept yet reported as a failure |
| CustomCommands.Remove | src/commands/custom_commands.rs:156-176 | success exactly when the name as typed was stored and the removal succeeded; then exactly that name is gone; otherwise the store is unchanged and, when a name was given, the reply is the plain failure |
| CustomCommands.DefineThenRemove | src/commands/custom_commands.rs:105-176 | for every lower-casing function, removing a just-defined command by its lower-cased name succeeds and leaves the store minus that name |
| CustomCommands.FourBackticksLeak | src/commands/custom_commands.rs:198 | as written, the guard leaves a fence in the displayed text of a body holding four backticks |
| CustomCommands.FenceGuardFixed | src/commands/custom_commands.rs:198 | the corrected guard leaves no fence in the displayed body, and removing the markers gives the body back |
| CustomCommands.BodyField | src/commands/custom_commands.rs:193-204 | a body under 1013 UTF-8 bytes is shown in a json code block; with the source's guard, removing the markers gives the body back whenever the body held no backtick-marker pair; with the corrected guard the block stays closed and always gives the body back; a longer body shows the fixed too-long text |
| CustomCommands.UnguardFenceGuard | src/commands/custom_commands.rs:198 | the source's guard loses nothing: removing the marker after each backtick restores every body that held no backtick-marker pair |
| CustomCommands.ListAfterBlank | src/commands/custom_commands.rs:224-235 | once the blank line has been written, no other line gets one |
| CustomCommands.ListLayout | src/commands/custom_commands.rs:213-239 | the list has one blank line, before the first command without a description, and none if every command has one |
| CustomCommands.Display | src/commands/custom_commands.rs:178-246 | a stored name shows its title, description and body field; an unknown name gives the failure text; with no name the list is shown exactly when it could be read, as the "Custom commands" embed whose description is the list layout |
| Checks.BlacklistChannel | src/check.rs:46-59 | a thread with a parent is checked under its parent channel; any other channel under its own id |
| Checks.AllowedBlacklist | src/check.rs:36-87 | outside a guild the message is allowed; a failed channel fetch or a non-guild channel is refused with a log; otherwise refused exactly when listed, or the lookup failed, and the author is not privileged, and such a refusal is a user-and-log reason that deletes the message and tells the user the fixed text |
| Checks.UserBlacklist | src/check.rs:89-124 | outside a guild allowed; otherwise refused exactly when the guild-wide entry (channel 0) lists the author or fails and the author is not privileged |
| Checks.UserBlacklistIsChannelZero | src/check.rs:99-104 | `user_blacklist` decides as `allowed_blacklist` would for channel 0 |
| Checks.ThreadUsesParent | src/check.rs:46-59 | a message in a thread is refused exactly when the same message in the parent channel would be |
| Checks.PrivilegeBypasses | src/check.rs:36-157 | the owner, a bot admin or a permission holder passes the blacklist, admin and Minecraft checks |
| Checks.IsAdmin | src/check.rs:126-138 | allowed exactly for the owner, a bot admin or a permission holder; otherwise the fixed user message |
| Checks.IsMinecraftServer | src/check.rs:140-157 | outside a guild refused with a log; otherwise allowed exactly when the guild has an IP or the author is privileged; a refusal is the fixed log text |
| Checks.IsLotrDiscord | src/check.rs:159-169 | allowed exactly in the Eras of Arda guild or for the owner; otherwise the fixed log text |
| Checks.ReasonActions | src/check.rs:184-212 | a User reason replies and reacts, a UserAndLog reason prints and DMs, a Log reason only prints; console-only exactly for reasons without user text |
| Checks.DispatchErrorHook | src/check.rs:171-235 | the hook always ends with the end line; the user is told something exactly for user reasons, guild-only errors and first rate-limit tries; a failed check prints its header then the reason's actions |
| Checks.BlacklistRefusalIsDirect | src/check.rs:196-207 | a blacklist refusal reaches the user only as a DM embed, never as a reply in the channel |
| Checks.AdminRefusalIsReply | src/check.rs:185-195 | an admin refusal is a reply with the cross reaction and no DM |
| Checks.GuildRefusalsAreSilent | src/check.rs:208-210 | refusals by the Minecraft and Eras-of-Arda checks are only printed |
| Checks.AfterHook | src/check.rs:237-278 | the hook prints exactly when the command failed, only to the console, starting with the error report header, the command name and the error |
| General.PrettyLargeInt | src/commands/general.rs:60-68 | removing the commas gives the decimal text; the first group has 1 to 3 digits without leading zero, every other group exactly 3; a comma appears exactly from 1000 on; 0 gives "0" |
| General.MoveGroup | src/commands/general.rs:63-66 | one loop turn moves the last three digits behind a comma to the front of the groups and keeps the value the text spells |
| General.LeadGroup | src/commands/general.rs:67 | the final `num % 1000` in front of the groups makes a well-grouped text |
| General.DecimalThousands | src/commands/general.rs:64 | the decimal text of `q*1000 + r` is that of `q` followed by `r` padded to three digits |
| General.ProjectChoice | src/commands/general.rs:73-77 | "renewed" in any letter case picks Renewed; anything else, no argument included, picks Legacy |
| General.LastSeparator | src/commands/general.rs:106 | the index found is the last separator (space, `-`, `_`, `+`, `v`); none exactly when the name has no separator |
| General.VersionText | src/commands/general.rs:105-108 | the version text holds no separator |
| General.VersionTextIsTrimmedTail | src/commands/general.rs:105-108 | the version is the text after the last separator with all trailing ".jar" removed, so it does not end in ".jar"; empty without separator |
| General.DownloadLabel | src/commands/general.rs:98-109 | the button says "Legacy" exactly when the project is Legacy, "Renewed" otherwise, and ends with the version text |
| General.FileUrl | src/commands/general.rs:92-96 | the link is the website address without any trailing `/`, then "/files/" and the file id |
| General.Curseforge | src/commands/general.rs:72-151 | a different project than asked for, or no files, shows nothing; otherwise the card has the file link, the label, and a footer whose count spells the download count |
| General.ForgeChoice | src/commands/general.rs:156-160 | only the exact word "legacy" picks Forge 1614 for 1.7.10; anything else picks 36.2.0 for 1.16.5 |
| General.Forge | src/commands/general.rs:155-191 | no "{mc}" is left in the link, a link without "{mc}" is kept, the description names the chosen Forge and Minecraft versions, and the labels name the Minecraft version |
| General.ForgeFillsPlaceholder | src/commands/general.rs:161 | each "{mc}" of the link template becomes the chosen Minecraft version and the text around it is kept |
| General.UserInfoTarget | src/commands/general.rs:345-351 | the first mention, else the parsed id argument, else the author |
| WikiStructures.DefaultLang | src/api/wiki/structures.rs:56-61 | the default language is English |
| WikiStructures.LangCode | src/api/wiki/structures.rs:161-174 | English shows as "wiki", every other language as a two-letter code |
| WikiStructures.LangCodesDistinct | src/api/wiki/structures.rs:161-174 | two languages have the same code exactly when they are the same language |
| WikiStructures.LangWelcome | src/api/wiki/structures.rs:77-88 | languages that greet by name put the user's name inside their greeting; the others use a fixed text |
| WikiStructures.Site | src/api/wiki/structures.rs:203-219 | every mod wiki site starts with the English one, and a non-English one is the English site, "/", and the language code |
| WikiStructures.ApiBelowSite | src/api/wiki/structures.rs:185-219 | the API address is the site plus "/api.php?" for every wiki except Tolkien Gateway |
| WikiStructures.ModApiBelowSite | src/api/wiki/structures.rs:188-215 | for every language the mod wiki's API address is its site plus "/api.php?" |
| WikiStructures.Name | src/api/wiki/structures.rs:244-251 | a mod wiki is named by its language's main title |
| WikiStructures.NamespaceCodesDistinct | src/api/wiki/structures.rs:298-309 | two namespaces have the same API code exactly when they are the same namespace |
| WikiStructures.Default | src/api/wiki/structures.rs:253-285 | every wiki's default page is titled with the wiki's name, links to its site and has a description |
| WikiStructures.MainPage | src/api/wiki/structures.rs:324-389 | Tolkien Gateway and Minecraft give their default page in every namespace; a non-article namespace of the Eras of Arda or mod wiki has no description, a link below the site and the special title (English for Eras of Arda); the mod wiki's article page is its title, welcome and site |
| WikiStructures.FromRandomPage | src/api/wiki/structures.rs:30-42 | a random page keeps its title, says "Random page...", and links to the English site, "/", and the trimmed title with every space made `_` |
| WikiCommands.Single | src/commands/wiki.rs:34 | reading a word returns it and moves past it; at the end it returns nothing and does not move |
| WikiCommands.Rewind | src/commands/wiki.rs:64 | rewinding moves one word back, but not before the start |
| WikiCommands.LangOfWord | src/commands/wiki.rs:38-46 | a recognised word is the short or the long name of the language it gives |
| WikiCommands.LangWordsRecognised | src/commands/wiki.rs:39-46 | both names of every language are recognised as that language |
| WikiCommands.ParseLang | src/commands/wiki.rs:31-54 | the flag is set exactly when the lower-cased word (empty when missing) names no language, and then the language is English |
| WikiCommands.LotrWiki | src/commands/wiki.rs:56-72 | with a language word, that wiki and the words after it; with another first word, the English wiki and all words, that one included; no words left shows the main page |
| WikiCommands.OtherWiki | src/commands/wiki.rs:129-149 | no words shows the wiki's default page; otherwise its articles are searched with all the words |
| WikiCommands.OtherWikiIsLotrWikiRule | src/commands/wiki.rs:129-149 | `tolkien` and `minecraft` choose between search and main page as `lotr_wiki` does for articles |
| WikiCommands.WikiSearchReply | src/commands/wiki.rs:19-27 | a found page is shown; otherwise the reply names the namespace |
| WikiCommands.RandomCommand | src/commands/wiki.rs:117-127 | a random title is shown as a page of the English mod wiki with that title; a failed query gives the fixed text |
| Floppa.Rem | src/database/floppa.rs:17 | Rust's `%`: undefined exactly for a zero divisor or `i64::MIN % -1`; otherwise it differs from the dividend by a multiple of the divisor, is smaller than it in size and has the dividend's sign |
| Floppa.FloppaIndex | src/database/floppa.rs:17 | the formula panics exactly when the maximum is 0, or -1 with `n = i64::MIN + 1` |
| Floppa.FloppaIndexIsFloorMod | src/database/floppa.rs:17 | for a maximum up to 2^62 and `n` other than `i64::MIN`, the formula is one more than the non-negative remainder of `n - 1` |
| Floppa.IndexInRange | src/database/floppa.rs:17 | for a positive maximum up to 2^62 the id is between 1 and the maximum, also for `i64::MIN` |
| Floppa.IndexCongruent | src/database/floppa.rs:17 | for a maximum up to 2^62 and `n` other than `i64::MIN`, the id is congruent to the number asked for, modulo the maximum |
| Floppa.IndexPeriodic | src/database/floppa.rs:17 | for a maximum up to 2^62, `n` and `n` plus whole multiples of the maximum give the same id when neither is `i64::MIN` |
| Floppa.IndexFixedPoints | src/database/floppa.rs:17 | for a maximum up to 2^62, a number from 1 to the maximum is its own id, and 0 gives the maximum |
| Floppa.AddFloppa | src/database/floppa.rs:33-72 | an address not yet stored is appended and nobody is told; a stored one changes nothing and the owner gets the fixed message |
| Floppa.AddFloppaKeepsUnique | src/database/floppa.rs:46-67 | adding keeps the addresses free of duplicates, and adding the same address twice is the same as once |

## Left out

- Discord input and output are represented as effect labels or as the reply a command would send. This covers messages, embeds, buttons, reactions, DMs, deletion, `announce` and cache lookups. Colours, icons, thumbnails, timestamps and byte sizes are left out.
- The database, the blacklist lookup, the permission and bot-admin queries, and the Minecraft IP lookup are left out. They are parameters of the functions that use them.
- serde_json parsing and pretty-printing are left out because they are a library. Each is a function parameter. Only the JSON string-literal grammar is modelled, to show the findings.
- The wiki search, random-page and display HTTP calls and the CurseForge API call are left out because they are network clients. Their results are inputs.
- `get_floppa`'s SQL queries and the `ORDER BY RAND()` branch are left out because they are database access and randomness. `is_floppadmin` is left out because it is a database read.
- `success!`, `failure!`, `handle_json_error!` and `is_admin!` are left out because their bodies are not part of this model. Each appears as an effect or a boolean input.
- `Args` is modelled as the token list and a read position. Its quote handling and its parsing of user ids are not modelled.
- The localized wiki texts are modelled as opaque constants. Only the structural facts are stated: site and API prefixes, language segments, which languages greet by name, and which fields are present.
- Checks.AfterHook: states only the header of the report. The guild, channel, author and content lines are left out because they use Rust's `Debug` formatting, which is not modelled.
- Checks.AllowedBlacklist: states the refusal's user text, not its log text, which is built with `Debug` formatting.
- General.ProjectChoice: `to_lowercase` is modelled for ASCII letters only. Non-ASCII letters cannot produce "renewed", so the choice is the same.
- WikiCommands.ParseLang: `to_lowercase` is modelled for ASCII letters only. For the same reason as above, the language found is the same.
- Floppa.IndexInRange: proved for maximum ids up to 2^62. Above that, the intermediate sum `b + max_len` can wrap in a release build.
- Floppa.IndexCongruent: the same 2^62 bound applies, and `n = i64::MIN` is excluded because `n - 1` wraps to `i64::MAX`.
- Floppa.IndexPeriodic: the same 2^62 bound applies, and neither number may be `i64::MIN`, for the same reason as above.
- Floppa.IndexFixedPoints: the 2^62 bound applies. Without it the release build is wrong: for `n` and the maximum both `i64::MAX`, `b + max_len` wraps and the id is -2.
- Overflow checks of a debug build, which would panic instead of wrapping, are not modelled. The model follows a release build.
- Checks: the console lines the checks print themselves (check.rs:69, 107 and 152: a failed deletion of a blacklisted message, and a bypassed Minecraft-server check) are not modelled; the deletion is taken to succeed, and the verdicts carry no print for them.
- The console lines the custom-command functions print (custom_commands.rs:25, 49, 81, 98, 127, 147, 184 and 212) are not modelled: they reach only the console, so runs carry no print effect for them.
- CustomCommands.CustomCommand: the deletion, the DM and `announce` are taken to succeed. In the source a failure of any of them ends the run with an error (custom_commands.rs:63, 68, 93, 95), so there `ok` would be false.
- General.Curseforge: the footer's count is a natural number. The `as u64` conversion of the API's download count (general.rs:136) is not modelled.
- WikiCommands.RandomCommand: assumes that `api::random` builds its page from the random title with the `From<RandomPage>` conversion of structures.rs:30-42. `api::random` itself is not part of this model.
- The JSON string reader does not combine UTF-16 surrogate pairs. A `\u` escape of a surrogate is rejected, where serde_json accepts a valid pair.

## Findings

| source | as written | input that shows it | evidently intended | confidence | as-written member | corrected member |
|---|---|---|---|---|---|---|
| src/commands/custom_commands.rs:42-44 | the argument's `$` is escaped to `\$` before backslashes are doubled, so it ends up as `\\$`, and decoding yields `\$` | the argument `$` | an argument's `$` reaches the JSON text as a plain `$` inside the string; backslashes are doubled first, then `$` is escaped | not executed | TemplateCodec.DollarArgumentBreaksJson | TemplateCodec.EscapeArgFixed |
| src/commands/custom_commands.rs:84 | a default value is only `$`-escaped, so a quote, backslash or newline in it goes into the JSON text raw | the default `"` | defaults are escaped like arguments, so they survive the parse | not executed | TemplateCodec.QuoteDefaultBreaksJson | TemplateCodec.EscapeDefaultFixed |
| src/commands/custom_commands.rs:198 | the fence guard replaces each non-overlapping "```" once, so four backticks keep a "```" after the guard, which closes the code block early | the body "````" | no run of three backticks is left in the displayed body | not executed | CustomCommands.FourBackticksLeak | CustomCommands.FenceGuardFixed |

The pipeline and the display take an `Escaping` mode. `AsWritten` runs the
source's escapes and guard. `Corrected` runs the fixed ones. The safety
results (`FillFromIsSafe`, `ExpandArgs`) and the run contract of
`CustomCommand` hold in both modes, and the JSON round trip (`FixedRoundTrip`) holds for the corrected
escapes.

=== FILE: checks.dfy ===
/** The checks run before a command, and the two hooks that report a
    failed dispatch and a failed command.

    Every lookup a check makes through Discord or the database arrives as a
    value: whether the author is a bot admin or holds the manage-bot
    permission, what the blacklist says (`None` when the lookup failed),
    whether a Minecraft IP is registered, what fetching the channel gave.
    The hooks return the list of things they would do, in order. */
module Checks {
  import opened Wrappers
  import opened Strings

  /** Why a check refused: shown to the user, shown to the user while the
      log gets the details, or logged only. `Unknown` stands for the
      framework's other variants, which these checks never produce. */
  datatype Reason =
    | User(message: string)
    | UserAndLog(user: string, log: string)
    | Log(message: string)
    | Unknown

  datatype Outcome = Allowed | Refused(reason: Reason)

  /** A check's result and whether it deleted the invoking message. */
  datatype Verdict = Verdict(outcome: Outcome, deleted: bool)

  /** What the check knows about the invoking message. The two booleans
      are the bot-admin flag and the manage-bot permission, which are
      computed elsewhere. */
  datatype Invocation = Invocation(
    guild: Option<nat>,
    author: nat,
    authorTag: string,
    channel: nat,
    content: string,
    isBotAdmin: bool,
    hasManagePerms: bool)

  /** What fetching the message's channel gave. */
  datatype ChannelLookup =
    | FetchFailed(error: string)
    | NotGuildChannel
    | GuildChannel(isThread: bool, parent: Option<nat>)

  const NOT_ALLOWED_HERE := "You are not allowed to use this command here."
  const NOT_ADMIN := "You are not an admin on this server!"
  const NOT_IN_GUILD := "Not in a guild"
  const NOT_MINECRAFT := "Not a minecraft server"
  const OUTSIDE_EOA := "Tried to use an Eras of Arda Community Discord only command outside the server"

  /** The `{:?}` form of a serenity id, such as `UserId(42)`. */
  function IdDebug(kind: string, id: nat): string {
    kind + "(" + Decimal(id) + ")"
  }

  /** The owner, a bot admin or a holder of the manage-bot permission. */
  predicate Privileged(inv: Invocation, owner: nat) {
    inv.author == owner || inv.isBotAdmin || inv.hasManagePerms
  }

  /** The blacklist decision both blacklist checks share: listed, or the
      lookup failed, and not privileged. */
  predicate BlacklistDenies(listed: Option<bool>, inv: Invocation, owner: nat) {
    listed.GetOr(true) && !inv.isBotAdmin && inv.author != owner && !inv.hasManagePerms
  }

  /** The channel whose blacklist entry counts: the parent of a thread
      when the thread has one, else the message's own channel. */
  function BlacklistChannel(isThread: bool, parent: Option<nat>, channel: nat): (c: nat)
    ensures isThread && parent.Some? ==> c == parent.value
    ensures !(isThread && parent.Some?) ==> c == channel
  {
    if isThread && parent.Some? then parent.value else channel
  }

  /** `allowed_blacklist`. `blacklist(guild, user, channel)` is the
      database's answer for that triple. */
  function AllowedBlacklist(inv: Invocation, lookup: ChannelLookup,
                            blacklist: (nat, nat, nat) -> Option<bool>, owner: nat): (v: Verdict)
    ensures inv.guild.None? ==> v == Verdict(Allowed, false)
    ensures inv.guild.Some? && lookup.FetchFailed? ==>
      v == Verdict(Refused(Log("Could not retrieve channel: " + lookup.error)), false)
    ensures inv.guild.Some? && lookup.NotGuildChannel? ==> v == Verdict(Refused(Log(NOT_IN_GUILD)), false)
    ensures inv.guild.Some? && lookup.GuildChannel? ==>
      var listed := blacklist(inv.guild.value, inv.author,
                              BlacklistChannel(lookup.isThread, lookup.parent, inv.channel));
      (v.outcome.Refused? <==> BlacklistDenies(listed, inv, owner))
    ensures inv.guild.Some? && lookup.GuildChannel? && v.outcome.Refused? ==>
      v.deleted && v.outcome.reason.UserAndLog? && v.outcome.reason.user == NOT_ALLOWED_HERE
    ensures v.deleted <==> v.outcome.Refused? && v.outcome.reason.UserAndLog?
    ensures v.outcome.Refused? && v.outcome.reason.UserAndLog? ==> v.outcome.reason.user == NOT_ALLOWED_HERE
    ensures Privileged(inv, owner) ==> !v.deleted
  {
    match inv.guild
    case None => Verdict(Allowed, false)
    case Some(g) =>
      match lookup
      case FetchFailed(e) => Verdict(Refused(Log("Could not retrieve channel: " + e)), false)
      case NotGuildChannel => Verdict(Refused(Log(NOT_IN_GUILD)), false)
      case GuildChannel(isThread, parent) =>
        var channel := BlacklistChannel(isThread, parent, inv.channel);
        if BlacklistDenies(blacklist(g, inv.author, channel), inv, owner) then
          // the log names the message's own channel, not the parent
          var log := "=== BLACKLIST ===\nUser: " + inv.authorTag + " " + IdDebug("UserId", inv.author)
            + "\nGuild: " + IdDebug("GuildId", g) + "\nChannel: " + IdDebug("ChannelId", inv.channel)
            + "\nMessage: " + inv.content + "\n=== END ===";
          Verdict(Refused(UserAndLog(NOT_ALLOWED_HERE, log)), true)
        else Verdict(Allowed, false)
  }

  /** `user_blacklist`: no channel lookup; the blacklist is asked about
      channel 0, the entry that stands for the user in the whole guild. */
  function UserBlacklist(inv: Invocation, blacklist: (nat, nat, nat) -> Option<bool>, owner: nat): (v: Verdict)
    ensures inv.guild.None? ==> v == Verdict(Allowed, false)
    ensures inv.guild.Some? ==> (v.outcome.Refused? <==> BlacklistDenies(blacklist(inv.guild.value, inv.author, 0), inv, owner))
    ensures v.outcome.Refused? ==> v.deleted && v.outcome.reason.UserAndLog? && v.outcome.reason.user == NOT_ALLOWED_HERE
    ensures !v.outcome.Refused? ==> !v.deleted
  {
    match inv.guild
    case None => Verdict(Allowed, false)
    case Some(g) =>
      if BlacklistDenies(blacklist(g, inv.author, 0), inv, owner) then
        var log := "=== USER BLACKLIST ===\nUser: " + inv.authorTag + " " + IdDebug("UserId", inv.author)
          + "\nGuild: " + IdDebug("GuildId", g) + "\nMessage: " + inv.content + "\n=== END ===";
        Verdict(Refused(UserAndLog(NOT_ALLOWED_HERE, log)), true)
      else Verdict(Allowed, false)
  }

  /** `is_admin`. */
  function IsAdmin(inv: Invocation, owner: nat): (o: Outcome)
    ensures o == Allowed <==> Privileged(inv, owner)
    ensures o != Allowed ==> o == Refused(User(NOT_ADMIN))
  {
    if inv.author == owner || inv.isBotAdmin || inv.hasManagePerms then Allowed
    else Refused(User(NOT_ADMIN))
  }

  /** `is_minecraft_server`; `hasIp` is whether the guild registered a
      server address. */
  function IsMinecraftServer(inv: Invocation, hasIp: bool, owner: nat): (o: Outcome)
    ensures inv.guild.None? ==> o == Refused(Log(NOT_IN_GUILD))
    ensures inv.guild.Some? ==> (o == Allowed <==> hasIp || Privileged(inv, owner))
    ensures inv.guild.Some? && o != Allowed ==> o == Refused(Log(NOT_MINECRAFT))
  {
    match inv.guild
    case None => Refused(Log(NOT_IN_GUILD))
    case Some(_) =>
      if hasIp then Allowed
      else if inv.isBotAdmin || inv.author == owner || inv.hasManagePerms then Allowed
      else Refused(Log(NOT_MINECRAFT))
  }

  /** `is_lotr_discord`: inside the Eras of Arda guild, or the owner. */
  function IsLotrDiscord(inv: Invocation, eoaGuild: nat, owner: nat): (o: Outcome)
    ensures o == Allowed <==> inv.guild == Some(eoaGuild) || inv.author == owner
    ensures o != Allowed ==> o == Refused(Log(OUTSIDE_EOA))
  {
    if inv.guild == Some(eoaGuild) || inv.author == owner then Allowed
    else Refused(Log(OUTSIDE_EOA))
  }

  // ---------------------------------------------------------------------
  // Hooks

  /** The framework's dispatch errors the hook tells apart; `OtherError`
      carries the debug text of every other variant. */
  datatype DispatchError =
    | CheckFailed(check: string, reason: Reason)
    | OnlyForGuilds
    | Ratelimited(isFirstTry: bool)
    | OtherError(debug: string)

  /** What a hook does: print to the console, reply in the channel, react
      to the message, or DM the author a red embed. */
  datatype Action = Print(text: string) | Reply(text: string) | React(emoji: char) | DmEmbed(description: string)

  const CROSS: char := '❌'
  const IN_DMS := "This command cannot be executed in DMs!"
  const RATELIMITED := "Wait a few seconds before using this command again!"
  const END_LINE := "=== END ==="

  /** The errors the user is told about: a check refusal meant for the
      user, a guild-only command in DMs, and the first rate-limited try. */
  predicate UserIsTold(error: DispatchError) {
    || (error.CheckFailed? && (error.reason.User? || error.reason.UserAndLog?))
    || error.OnlyForGuilds?
    || (error.Ratelimited? && error.isFirstTry)
  }

  predicate ConsoleOnly(actions: seq<Action>) {
    forall i :: 0 <= i < |actions| ==> actions[i].Print?
  }

  function ReasonActions(reason: Reason): (r: seq<Action>)
    ensures reason.User? ==> r == [Reply(reason.message), React(CROSS)]
    ensures reason.UserAndLog? ==> r == [Print(reason.log), DmEmbed(reason.user)]
    ensures reason.Log? ==> r == [Print(reason.message)]
    ensures ConsoleOnly(r) <==> !(reason.User? || reason.UserAndLog?)
  {
    match reason
    case User(m) =>
      var r := [Reply(m), React(CROSS)];
      assert !r[0].Print?;
      r
    case UserAndLog(user, log) =>
      var r := [Print(log), DmEmbed(user)];
      assert !r[1].Print?;
      r
    case Log(m) => [Print(m)]
    case Unknown => [Print("(Unknown reason)")]
  }

  lemma ConsoleOnlyConcat(a: seq<Action>, b: seq<Action>)
    ensures ConsoleOnly(a + b) <==> ConsoleOnly(a) && ConsoleOnly(b)
  {
    if ConsoleOnly(a + b) {
      forall i | 0 <= i < |a| ensures a[i].Print? {
        assert (a + b)[i] == a[i];
      }
      forall i | 0 <= i < |b| ensures b[i].Print? {
        assert (a + b)[|a| + i] == b[i];
      }
    }
  }

  /** `dispatch_error_hook`. Failures to send are only printed and are
      left out. */
  function DispatchErrorHook(error: DispatchError, commandName: string): (r: seq<Action>)
    ensures |r| >= 1 && r[|r| - 1] == Print(END_LINE)
    ensures ConsoleOnly(r) <==> !UserIsTold(error)
    ensures error.CheckFailed? ==>
      r[0] == Print("=== CHECK FAILED ===\nCheck failed in command " + commandName + ": " + error.check)
      && r[1..|r| - 1] == ReasonActions(error.reason)
    ensures error.OnlyForGuilds? ==> Reply(IN_DMS) in r
    ensures error.Ratelimited? ==> (Reply(RATELIMITED) in r <==> error.isFirstTry)
  {
    var body := (match error
      case CheckFailed(s, reason) =>
        (var head := [Print("=== CHECK FAILED ===\nCheck failed in command " + commandName + ": " + s)];
         ConsoleOnlyConcat(head, ReasonActions(reason));
         head + ReasonActions(reason))
      case OnlyForGuilds =>
        (var r := [Reply(IN_DMS)];
         assert !r[0].Print?;
         r)
      case Ratelimited(first) =>
        (var r := if first then [Reply(RATELIMITED)] else [];
         assert first ==> !r[0].Print?;
         r)
      case OtherError(d) => [Print("Dispatch error: " + d)]);
    ConsoleOnlyConcat(body, [Print(END_LINE)]);
    body + [Print(END_LINE)]
  }

  /** The `{:?}` form of a string: between double quotes (escaping of
      quotes and control characters inside is not modelled). */
  function StrDebug(s: string): string {
    "\"" + s + "\""
  }

  /** Where a failed command came from, as `after_hook` describes it:
      the guild's and the channel's names are cache lookups and may be
      missing. */
  datatype Origin = Origin(
    authorTag: string,
    author: nat,
    guild: Option<nat>,
    guildName: Option<string>,
    channel: nat,
    channelName: Option<string>,
    content: string)

  function GuildText(o: Origin): string {
    match o.guild
    case None => "None"
    case Some(g) =>
      match o.guildName
      case Some(name) => StrDebug(name) + ", " + IdDebug("GuildId", g)
      case None => IdDebug("GuildId", g)
  }

  function ChannelText(o: Origin): string {
    match o.channelName
    case Some(name) => "#" + name + ", " + IdDebug("ChannelId", o.channel)
    case None => IdDebug("ChannelId", o.channel)
  }

  /** `after_hook`: a command that returned `Ok` leaves no trace; an error
      prints one report naming the command, the error and the message. */
  function AfterHook(commandName: string, error: Option<string>, origin: Origin): (r: seq<Action>)
    ensures error.None? <==> r == []
    ensures ConsoleOnly(r) && |r| <= 1
    ensures error.Some? ==> StartsWith(r[0].text, "=== ERROR REPORT ===\nError in command `" + commandName + "`: " + error.value)
  {
    match error
    case None => []
    case Some(why) =>
      var head := "=== ERROR REPORT ===\nError in command `" + commandName + "`: " + why;
      var report := head
        + "\n=== MESSAGE ===\nAuthor: " + origin.authorTag + ", " + IdDebug("UserId", origin.author)
        + "\nGuild: " + GuildText(origin) + "\nChannel: " + ChannelText(origin)
        + "\nContent: " + origin.content + "\n=== END ===";
      assert report[..|head|] == head;
      [Print(report)]
  }

  // ---------------------------------------------------------------------
  // Properties across checks and hooks

  /** A thread is judged by its parent's blacklist entry: the verdict for a
      message in a thread with a parent is the verdict the parent channel
      would get, apart from the log naming the thread. */
  lemma ThreadUsesParent(inv: Invocation, parent: nat,
                         blacklist: (nat, nat, nat) -> Option<bool>, owner: nat)
    requires inv.guild.Some?
    ensures AllowedBlacklist(inv, GuildChannel(true, Some(parent)), blacklist, owner).outcome.Refused?
        <==> AllowedBlacklist(inv.(channel := parent), GuildChannel(false, None), blacklist, owner).outcome.Refused?
  {
  }

  /** The user blacklist is the channel blacklist asked about channel 0:
      both refuse the same messages when the channel is not a thread. */
  lemma UserBlacklistIsChannelZero(inv: Invocation, blacklist: (nat, nat, nat) -> Option<bool>, owner: nat)
    ensures UserBlacklist(inv, blacklist, owner).outcome.Refused?
        <==> AllowedBlacklist(inv.(channel := 0), GuildChannel(false, None), blacklist, owner).outcome.Refused?
  {
  }

  /** Privilege passes every check except the Eras of Arda guild check,
      which only the owner bypasses. */
  lemma PrivilegeBypasses(inv: Invocation, lookup: ChannelLookup,
                          blacklist: (nat, nat, nat) -> Option<bool>, hasIp: bool, owner: nat)
    requires inv.guild.Some? && lookup.GuildChannel? && Privileged(inv, owner)
    ensures AllowedBlacklist(inv, lookup, blacklist, owner).outcome == Allowed
    ensures UserBlacklist(inv, blacklist, owner).outcome == Allowed
    ensures IsAdmin(inv, owner) == Allowed
    ensures IsMinecraftServer(inv, hasIp, owner) == Allowed
  {
  }

  /** A blacklist refusal reaches the user as a DM with the fixed text,
      never as a reply in the channel. */
  lemma BlacklistRefusalIsDirect(name: string, check: string, inv: Invocation, lookup: ChannelLookup,
                                 blacklist: (nat, nat, nat) -> Option<bool>, owner: nat)
    ensures var v := AllowedBlacklist(inv, lookup, blacklist, owner);
      v.deleted ==>
        var r := DispatchErrorHook(CheckFailed(check, v.outcome.reason), name);
        DmEmbed(NOT_ALLOWED_HERE) in r && forall a :: a in r ==> !a.Reply?
  {
    var v := AllowedBlacklist(inv, lookup, blacklist, owner);
    if v.deleted {
      var r := DispatchErrorHook(CheckFailed(check, v.outcome.reason), name);
      var log := v.outcome.reason.log;
      assert r[1..|r| - 1] == [Print(log), DmEmbed(NOT_ALLOWED_HERE)];
      assert r == [r[0], Print(log), DmEmbed(NOT_ALLOWED_HERE), Print(END_LINE)];
    }
  }

  /** An admin refusal reaches the user as a reply with a cross reaction,
      and never as a DM. */
  lemma AdminRefusalIsReply(name: string, check: string, inv: Invocation, owner: nat)
    ensures var o := IsAdmin(inv, owner);
      o.Refused? ==>
        var r := DispatchErrorHook(CheckFailed(check, o.reason), name);
        Reply(NOT_ADMIN) in r && React(CROSS) in r && forall a :: a in r ==> !a.DmEmbed?
  {
    var o := IsAdmin(inv, owner);
    if o.Refused? {
      var r := DispatchErrorHook(CheckFailed(check, o.reason), name);
      assert r[1..|r| - 1] == [Reply(NOT_ADMIN), React(CROSS)];
      assert r == [r[0], Reply(NOT_ADMIN), React(CROSS), Print(END_LINE)];
    }
  }

  /** The Minecraft and Eras of Arda checks fail silently: the hook only
      prints. */
  lemma GuildRefusalsAreSilent(name: string, check: string, inv: Invocation,
                               hasIp: bool, eoaGuild: nat, owner: nat)
    ensures var o := IsMinecraftServer(inv, hasIp, owner);
      o.Refused? ==> ConsoleOnly(DispatchErrorHook(CheckFailed(check, o.reason), name))
    ensures var o := IsLotrDiscord(inv, eoaGuild, owner);
      o.Refused? ==> ConsoleOnly(DispatchErrorHook(CheckFailed(check, o.reason), name))
  {
  }
}

=== FILE: custom_commands.dfy ===
/** The custom-command feature of src/commands/custom_commands.rs: running
    a stored command (expansion, privilege gate, default arguments,
    self-deletion), defining, removing and displaying commands.

    The per-guild command store is a map from lower-cased name to entry;
    the chat platform is reduced to the list of effects a run produces; the
    JSON parser and pretty-printer are function parameters. */
module CustomCommands {
  import opened Wrappers
  import opened Strings
  import opened JsonValues
  import opened TemplateCodec

  const NOT_ALLOWED: string := "You are not allowed to use this command here!"
  const NOT_ADMIN: string := "You are not an admin on this server!"
  const NOT_FOUND: string := "The custom command does not exist!"
  const TOO_LONG: string := "_Too long to display here_"
  const NO_DESCRIPTION: string := "_No description_"
  /** Bodies of at least this many UTF-8 bytes are not displayed. */
  const DISPLAY_LIMIT: nat := 1013

  datatype Entry = Entry(body: string, description: Option<string>)

  /** What the gate learns about the invoking user. */
  datatype Caller = Caller(isOwner: bool, isBotAdmin: bool, hasManagePerms: bool, blacklisted: Option<bool>)
  {
    /** Bot owner, bot admin of the guild, or holder of the manage permissions. */
    predicate Privileged() {
      isOwner || isBotAdmin || hasManagePerms
    }

    /** A failed blacklist lookup counts as blacklisted. */
    predicate Blocked() {
      blacklisted.GetOr(true)
    }
  }

  datatype Effect =
    | DeleteInvocation
    | DirectMessage(text: string)
    | FailureReply(text: string)
    | Announce(message: Json)

  /** The effects of one run, in order, and whether it ended without error. */
  datatype Run = Run(effects: seq<Effect>, ok: bool)

  datatype Gate = Pass | Deny | WarnNotAdmin

  /** Which text escapes a run uses: the source's own, or the corrected
      ones of the README's findings. Both keep every substituted `$`
      escaped. */
  datatype Escaping = AsWritten | Corrected

  // =======================================================================
  // Running a command (lines 24-101)

  /** Lines 52-74, for a `type` field holding `kind`. A warning does not
      stop the run. */
  function PrivilegeGate(kind: Json, caller: Caller): (g: Gate)
    ensures g == Deny <==> kind == JString("meme") && !caller.Privileged() && caller.Blocked()
    ensures g == WarnNotAdmin <==> kind == JString("admin") && !caller.Privileged()
  {
    if kind.JString? && !caller.Privileged() then
      if kind.s == "meme" && caller.Blocked() then Deny
      else if kind.s == "admin" then WarnNotAdmin
      else Pass
    else Pass
  }

  function EscapeArgWith(mode: Escaping, arg: string): (r: string)
    ensures Escaped(r) && Marks(r) == 0
  {
    if mode == AsWritten then EscapeArg(arg) else EscapeArgFixed(arg)
  }

  function EscapeDefaultWith(mode: Escaping, s: string): (r: string)
    ensures Escaped(r) && Marks(r) == 0
  {
    if mode == AsWritten then
      EscapedIsGuarded(EscapeDefault(s));
      EscapeDefault(s)
    else
      EscapeDefaultFixed(s)
  }

  /** The escaped arguments, one per placeholder index from 0. */
  function ArgValues(args: seq<string>, mode: Escaping): (r: seq<Option<string>>)
    ensures |r| == |args| && AllEscaped(r)
    ensures forall j :: 0 <= j < |r| ==> r[j] == Some(EscapeArgWith(mode, args[j]))
  {
    seq(|args|, j requires 0 <= j < |args| => Some(EscapeArgWith(mode, args[j])))
  }

  /** Lines 28-48: the stored body encoded, with the arguments filled in.
      No argument can add a marked dollar, so none can be taken for a
      placeholder by a later substitution. */
  function ExpandArgs(stored: string, args: seq<string>, mode: Escaping): (r: string)
    ensures Guarded(r) && Marks(r) <= Marks(Encode(stored))
  {
    FillFromIsSafe(Encode(stored), ArgValues(args, mode), 0);
    FillFrom(Encode(stored), ArgValues(args, mode), 0)
  }

  /** The defaults used when `argc` arguments were given: entry `j` is for
      placeholder `argc + j`; a non-string default yields no value but still
      uses up its index. */
  function DefaultValues(defaults: seq<Json>, argc: nat, mode: Escaping): (r: seq<Option<string>>)
    ensures |r| == (if argc < |defaults| then |defaults| - argc else 0)
    ensures AllEscaped(r)
    ensures forall j :: 0 <= j < |r| ==>
      (r[j].Some? <==> defaults[argc + j].JString?)
      && (r[j].Some? ==> r[j].value == EscapeDefaultWith(mode, defaults[argc + j].s))
  {
    var from := if argc < |defaults| then argc else |defaults|;
    var r := seq(|defaults| - from, j requires 0 <= j < |defaults| - from =>
      if defaults[from + j].JString? then Some(EscapeDefaultWith(mode, defaults[from + j].s)) else None);
    assert forall j :: 0 <= j < |r| && r[j].Some? ==> Escaped(r[j].value) by {
      forall j | 0 <= j < |r| && r[j].Some? ensures Escaped(r[j].value) {
        assert r[j].value == EscapeDefaultWith(mode, defaults[from + j].s);
      }
    }
    r
  }

  /** Lines 76-91: the message to announce. The body is parsed again only
      when it held the placeholder for index `argc` before the defaults were
      applied; otherwise the first parse stands, even if a later default
      changed the body. */
  function ApplyDefaults(first: Json, filled: string, argc: nat, parse: string -> Option<Json>, mode: Escaping): (r: Option<Json>)
    ensures !Contains(filled, Placeholder(argc)) ==> r == Some(first)
    ensures !Index(first, "default_args").JArray? ==> r == Some(first)
    ensures r != Some(first) ==>
      r == parse(Decode(FillFrom(filled, DefaultValues(Index(first, "default_args").items, argc, mode), argc)))
  {
    match Index(first, "default_args")
    case JArray(defaults) =>
      if Contains(filled, Placeholder(argc)) then
        parse(Decode(FillFrom(filled, DefaultValues(defaults, argc, mode), argc)))
      else
        Some(first)
    case _ => Some(first)
  }

  /** Called with no argument, a body that uses `$1` but not `$0` is never
      parsed again: the first parse is announced, whatever the defaults
      would have put in place of `$1`. */
  lemma LaterPlaceholderNotReparsed(first: Json, parse: string -> Option<Json>, mode: Escaping)
    ensures Encode("$1") == Placeholder(1)
    ensures ApplyDefaults(first, Encode("$1"), 0, parse, mode) == Some(first)
  {
    assert Decimal(1) == "1" && Decimal(0) == "0";
    EncodeAgreesWithReference("$1");
    assert "$1"[1..] == "1";
    EncodeRefDollarFree("1");
    var t := Placeholder(1);
    assert t == [MARK, '$', '1'];
    NotStartsWithAt(t, Placeholder(0), 2);
    ShortNotContained(t[1..], Placeholder(0));
  }

  /** Line 92: only the JSON boolean `true` asks for self-deletion. */
  function SelfDelete(message: Json): (b: bool)
    ensures b <==> Index(message, "self_delete") == JBool(true)
  {
    AsBool(Index(message, "self_delete")).GetOr(false)
  }

  /** The announcement, followed by the deletion of the invoking message
      when the message asks for it (lines 92-96). */
  function Announcement(message: Json): (r: seq<Effect>)
    ensures 1 <= |r| <= 2 && r[0] == Announce(message)
    ensures |r| == 2 <==> Index(message, "self_delete") == JBool(true)
    ensures |r| == 2 ==> r[1] == DeleteInvocation
  {
    [Announce(message)] + (if SelfDelete(message) then [DeleteInvocation] else [])
  }

  /** At most one announcement, and the invoking message is deleted right
      after it exactly when the announced message asks for self-deletion. */
  predicate AnnouncesWell(effects: seq<Effect>) {
    (forall i, j :: 0 <= i < j < |effects| ==> !(effects[i].Announce? && effects[j].Announce?))
    && forall i :: 0 <= i < |effects| && effects[i].Announce? ==>
      (i + 1 < |effects| <==> SelfDelete(effects[i].message))
      && (i + 1 < |effects| ==> effects[i + 1] == DeleteInvocation)
  }

  /** The admin warning `failure!` sends, when the gate gave one. */
  function Warning(gate: Gate): seq<Effect> {
    if gate == WarnNotAdmin then [FailureReply(NOT_ADMIN)] else []
  }

  /** The run once the gate has let the caller through: the warning, if
      any, then the announcement of the final message. A failed re-parse
      ends the run with an error after the warning. */
  function Proceed(gate: Gate, announced: Option<Json>): (r: Run)
    requires gate != Deny
    ensures AnnouncesWell(r.effects)
    ensures forall e :: e in r.effects ==> !e.DirectMessage? && (e.FailureReply? ==> gate == WarnNotAdmin)
    ensures gate == WarnNotAdmin ==> |r.effects| > 0 && r.effects[0] == FailureReply(NOT_ADMIN)
    ensures forall x :: Announce(x) in r.effects <==> announced == Some(x)
    ensures announced.Some? ==> r.effects == Warning(gate) + Announcement(announced.value)
    ensures announced.None? ==> r.effects == Warning(gate)
    ensures r.ok <==> announced.Some?
  {
    var warned := Warning(gate);
    match announced
    case None => Run(warned, false)
    case Some(message) =>
      WarnedAnnouncement(gate, message);
      Run(warned + Announcement(message), true)
  }

  /** The warning and the announcement together: one announcement, of
      `message`, with the deletion right after it when asked for. */
  lemma WarnedAnnouncement(gate: Gate, message: Json)
    ensures AnnouncesWell(Warning(gate) + Announcement(message))
    ensures forall x :: Announce(x) in Warning(gate) + Announcement(message) <==> x == message
  {
    var a := Announcement(message);
    var m := Announce(message);
    if SelfDelete(message) {
      assert a == [m, DeleteInvocation];
      if gate == WarnNotAdmin {
        assert Warning(gate) + a == [FailureReply(NOT_ADMIN), m, DeleteInvocation];
      } else {
        assert Warning(gate) + a == [m, DeleteInvocation];
      }
    } else {
      assert a == [m];
      if gate == WarnNotAdmin {
        assert Warning(gate) + a == [FailureReply(NOT_ADMIN), m];
      } else {
        assert Warning(gate) + a == [m];
      }
    }
  }

  /** What a run the gate let through does: the admin warning when the gate
      gave one, then the announcement of `announced` (with the deletion after
      it on `self_delete`) and nothing else; it succeeds exactly when there
      was a message to announce. */
  ghost predicate PassesWith(r: Run, gate: Gate, announced: Option<Json>) {
    (r.ok <==> announced.Some?)
    && (forall x :: Announce(x) in r.effects <==> announced == Some(x))
    && (gate == WarnNotAdmin ==> |r.effects| > 0 && r.effects[0] == FailureReply(NOT_ADMIN))
    && r.effects == Warning(gate) + (if announced.Some? then Announcement(announced.value) else [])
  }

  /** The run from the first successful parse on: the gate, then either
      the refusal (the invoking message deleted and the user told by DM) or
      the defaults and the announcement. */
  function Gated(first: Json, filled: string, argc: nat, caller: Caller,
                 parse: string -> Option<Json>, mode: Escaping): (r: Run)
    ensures AnnouncesWell(r.effects)
    ensures caller.Privileged() ==> forall e :: e in r.effects ==> !e.DirectMessage? && !e.FailureReply?
    ensures PrivilegeGate(Index(first, "type"), caller) == Deny <==> DirectMessage(NOT_ALLOWED) in r.effects
    ensures PrivilegeGate(Index(first, "type"), caller) == Deny ==>
      r == Run([DeleteInvocation, DirectMessage(NOT_ALLOWED)], true)
    ensures PrivilegeGate(Index(first, "type"), caller) != Deny ==>
      PassesWith(r, PrivilegeGate(Index(first, "type"), caller), ApplyDefaults(first, filled, argc, parse, mode))
  {
    var gate := PrivilegeGate(Index(first, "type"), caller);
    if gate == Deny then
      var r := Run([DeleteInvocation, DirectMessage(NOT_ALLOWED)], true);
      assert r.effects[1] == DirectMessage(NOT_ALLOWED);
      r
    else
      Proceed(gate, ApplyDefaults(first, filled, argc, parse, mode))
  }

  /** Invoking a custom command: `tokens` are the words after the command
      prefix (the name, then the arguments). `lower` is Rust's
      `str::to_lowercase`, the full Unicode lower-casing of the name. */
  function CustomCommand(tokens: seq<string>, store: map<string, Entry>, caller: Caller,
                         parse: string -> Option<Json>, mode: Escaping, lower: string -> string): (r: Run)
    ensures |tokens| == 0 ==> r == Run([], false)
    ensures |tokens| > 0 && lower(tokens[0]) !in store ==> r == Run([], true)
    ensures AnnouncesWell(r.effects)
    ensures caller.Privileged() ==> forall e :: e in r.effects ==> !e.DirectMessage? && !e.FailureReply?
    ensures DirectMessage(NOT_ALLOWED) in r.effects ==> r == Run([DeleteInvocation, DirectMessage(NOT_ALLOWED)], true)
    ensures |tokens| > 0 && lower(tokens[0]) in store ==>
      var first := parse(Decode(ExpandArgs(store[lower(tokens[0])].body, tokens[1..], mode)));
      (DirectMessage(NOT_ALLOWED) in r.effects
       <==> first.Some? && Index(first.value, "type") == JString("meme") && !caller.Privileged() && caller.Blocked())
    ensures |tokens| > 0 && lower(tokens[0]) in store ==>
      var filled := ExpandArgs(store[lower(tokens[0])].body, tokens[1..], mode);
      var first := parse(Decode(filled));
      (first.None? ==> r == Run([], false))
      && (first.Some? && PrivilegeGate(Index(first.value, "type"), caller) != Deny ==>
        PassesWith(r, PrivilegeGate(Index(first.value, "type"), caller),
                   ApplyDefaults(first.value, filled, |tokens| - 1, parse, mode)))
  {
    if |tokens| == 0 then Run([], false)
    else
      var name := lower(tokens[0]);
      if name !in store then Run([], true)
      else
        var args := tokens[1..];
        var filled := ExpandArgs(store[name].body, args, mode);
        match parse(Decode(filled))
        case None => Run([], false)
        case Some(first) => Gated(first, filled, |args|, caller, parse, mode)
  }

  lemma NoDollarNoMarks(s: string)
    requires '$' !in s
    ensures Marks(s) == 0
  {
    EscapedHasNoMarks(s);
  }

  /** A stored body without `$` has no placeholder: the arguments are
      ignored and the run is the same as with no argument at all. */
  lemma ArgumentsIgnoredWithoutDollar(name: string, args: seq<string>, store: map<string, Entry>,
                                      caller: Caller, parse: string -> Option<Json>, mode: Escaping,
                                      lower: string -> string)
    requires lower(name) in store && '$' !in store[lower(name)].body
    ensures ExpandArgs(store[lower(name)].body, args, mode) == store[lower(name)].body
    ensures CustomCommand([name] + args, store, caller, parse, mode, lower) == CustomCommand([name], store, caller, parse, mode, lower)
  {
    var body := store[lower(name)].body;
    NoDollarNoMarks(body);
    FillFromWithoutMarks(body, ArgValues(args, mode), 0);
    FillFromWithoutMarks(body, ArgValues([], mode), 0);
    if Contains(body, Placeholder(|args|)) {
      ContainsPlaceholderHasMark(body, |args|);
    }
    if Contains(body, Placeholder(0)) {
      ContainsPlaceholderHasMark(body, 0);
    }
    assert ([name] + args)[0] == name && ([name] + args)[1..] == args;
    assert [name][1..] == [];
  }

  lemma EncodeSinglePlaceholder(x: string, y: string)
    requires '$' !in x && '$' !in y
    requires |x| == 0 || x[|x| - 1] != '\\'
    ensures Encode(x + "$0" + y) == x + (Placeholder(0) + y)
  {
    var t := "$0" + y;
    assert x + "$0" + y == x + t;
    EncodeAgreesWithReference(x + t);
    EncodeRefConcat(x, t);
    EncodeRefDollarFree(x);
    EncodeRefPlaceholderZero(y);
  }

  lemma EncodeRefPlaceholderZero(y: string)
    requires '$' !in y
    ensures EncodeRef("$0" + y) == Placeholder(0) + y
  {
    var t := "$0" + y;
    PlaceholderZero();
    assert t[0] == '$' && t[0] != '\\' && t[1..] == "0" + y;
    EncodeRefDollarFree("0" + y);
    assert EncodeRef(t) == MarkChar(t[0]) + EncodeRef(t[1..]);
    assert MarkChar(t[0]) == MARKED_DOLLAR;
    assert MARKED_DOLLAR + "0" == Placeholder(0);
    ConcatAssoc(MARKED_DOLLAR, "0", y);
  }

  lemma PlaceholderZero()
    ensures Placeholder(0) == [MARK, '$', '0']
  {
    assert Decimal(0) == "0";
  }

  lemma SubstituteSinglePlaceholder(x: string, y: string, v: string)
    requires '$' !in y && MARK !in x
    ensures Substitute(x + (Placeholder(0) + y), 0, v) == x + v + y
  {
    var p := Placeholder(0);
    ReplaceAllCopiesPrefix(x, p + y, p, v);
    ReplaceAllAtMatch(p, y, v);
    assert p[1] == '$';
    MissingCharNotContained(y, p, '$');
    ReplaceAllAbsent(y, p, v);
  }

  /** A body with one placeholder `$0` and no other `$` gets the escaped
      argument exactly there, and the text around it is kept. */
  lemma SinglePlaceholderFilled(x: string, y: string, arg: string, mode: Escaping)
    requires '$' !in x && '$' !in y && MARK !in x
    requires |x| == 0 || x[|x| - 1] != '\\'
    ensures ExpandArgs(x + "$0" + y, [arg], mode) == x + EscapeArgWith(mode, arg) + y
  {
    var v := EscapeArgWith(mode, arg);
    EncodeSinglePlaceholder(x, y);
    SubstituteSinglePlaceholder(x, y, v);
    var values := ArgValues([arg], mode);
    assert values == [Some(v)];
    assert values[1..] == [];
    assert FillFrom(Encode(x + "$0" + y), values, 0) == FillFrom(Substitute(Encode(x + "$0" + y), 0, v), [], 1);
  }

  // =======================================================================
  // Defining and removing commands (lines 103-176)

  /** The message a define command carries: its JSON, or the parse error. */
  datatype JsonInput = Parsed(value: Json) | Unparsable(error: string)

  datatype Reply =
    | Succeeded
    | Failed(reason: Option<string>)
    | JsonProblem(error: string)
    | Aborted

  function ReservedMessage(name: string): string {
    "You cannot add a command with the reserved name `" + name + "`"
  }

  /** The entry stored for a define message: the JSON without its
      `documentation` field, pretty-printed, and the documentation when it is
      a string. */
  function NewEntry(value: Json, pretty: Json -> string): (e: Entry)
    ensures e.description == AsStr(Index(value, "documentation"))
    ensures exists rest ::
      Without(value, "documentation", rest) && Index(rest, "documentation") == JNull && e.body == pretty(rest)
  {
    var (rest, doc) := TakeField(value, "documentation");
    Entry(pretty(rest), AsStr(doc))
  }

  /** Lines 105-154. `lower` is Rust's `str::to_lowercase`, the full
      Unicode lower-casing; `reserved` is the set of names no custom command
      may take. `writeOk` is whether the store accepted the write, and
      `confirmed` whether the re-read of lines 140-143 then found the name:
      success is reported only when both hold, yet a write that landed is
      kept when the re-read fails. */
  function Define(tokens: seq<string>, input: JsonInput, store: map<string, Entry>, reserved: set<string>,
                  pretty: Json -> string, lower: string -> string, writeOk: bool, confirmed: bool)
    : (r: (map<string, Entry>, Reply))
    ensures |tokens| == 0 ==> r == (store, Aborted)
    ensures r.1 == Succeeded <==>
      |tokens| > 0 && lower(tokens[0]) !in reserved && input.Parsed? && writeOk && confirmed
    ensures |tokens| > 0 && lower(tokens[0]) !in reserved && input.Parsed? && writeOk ==>
      r.0 == store[lower(tokens[0]) := NewEntry(input.value, pretty)]
    ensures !(|tokens| > 0 && lower(tokens[0]) !in reserved && input.Parsed? && writeOk) ==> r.0 == store
    ensures r.1 != Succeeded && !writeOk ==> r.0 == store
    ensures |tokens| > 0 && lower(tokens[0]) in reserved ==> r.1 == Failed(Some(ReservedMessage(lower(tokens[0]))))
    ensures |tokens| > 0 && lower(tokens[0]) !in reserved && input.Unparsable? ==> r.1 == JsonProblem(input.error)
    ensures |tokens| > 0 && lower(tokens[0]) !in reserved && input.Parsed? && !(writeOk && confirmed) ==>
      r.1 == Failed(None)
  {
    if |tokens| == 0 then (store, Aborted)
    else
      var name := lower(tokens[0]);
      if name in reserved then (store, Failed(Some(ReservedMessage(name))))
      else
        match input
        case Unparsable(e) => (store, JsonProblem(e))
        case Parsed(value) =>
          var after := if writeOk then store[name := NewEntry(value, pretty)] else store;
          (after, if writeOk && confirmed then Succeeded else Failed(None))
  }

  /** Lines 156-176. The name is used as typed, without lower-casing. */
  function Remove(tokens: seq<string>, store: map<string, Entry>, removeOk: bool): (r: (map<string, Entry>, Reply))
    ensures |tokens| == 0 ==> r == (store, Aborted)
    ensures r.1 == Succeeded <==> |tokens| > 0 && tokens[0] in store && removeOk
    ensures r.1 == Succeeded ==> r.0 == store - {tokens[0]}
    ensures r.1 != Succeeded ==> r.0 == store
    ensures |tokens| > 0 && r.1 != Succeeded ==> r.1 == Failed(None)
  {
    if |tokens| == 0 then (store, Aborted)
    else if tokens[0] in store && removeOk then (store - {tokens[0]}, Succeeded)
    else (store, Failed(None))
  }

  /** Removing a just-defined command by its lower-cased name succeeds and
      leaves the store as it was, minus that name. */
  lemma DefineThenRemove(n: string, value: Json, store: map<string, Entry>, reserved: set<string>,
                         pretty: Json -> string, lower: string -> string)
    requires lower(n) !in reserved
    ensures var after := Define([n], Parsed(value), store, reserved, pretty, lower, true, true).0;
      Remove([lower(n)], after, true) == (store - {lower(n)}, Succeeded)
  {
    var name := lower(n);
    var after := store[name := NewEntry(value, pretty)];
    assert after - {name} == store - {name};
  }

  // =======================================================================
  // Displaying commands (lines 178-246)

  datatype Embed = Embed(title: string, description: Option<string>, fields: seq<(string, string)>)

  datatype Shown = ShowEmbed(embed: Embed) | DisplayFailed(text: string) | NothingShown

  /** Line 198 as written: "```" becomes backtick, marker, two backticks.
      It does not stop a run of four backticks from closing the block. */
  function FenceGuard(body: string): string {
    ReplaceAll(body, "```", ['`', MARK, '`', '`'])
  }

  lemma FourBackticksLeak()
    ensures Contains(FenceGuard("````"), "```")
  {
    ReplaceAllAtMatch("```", "`", ['`', MARK, '`', '`']);
    assert FenceGuard("````") == ['`', MARK, '`', '`', '`'];
    var r := FenceGuard("````");
    assert StartsWith(r[1..][1..], "```");
  }

  predicate BacktickGuarded(r: string) {
    forall i :: 0 <= i < |r| && r[i] == '`' ==> i + 1 < |r| && r[i + 1] == MARK
  }

  lemma {:induction false} BacktickGuardedConcat(x: string, y: string)
    requires BacktickGuarded(x) && BacktickGuarded(y)
    ensures BacktickGuarded(x + y)
  {
    var z := x + y;
    forall i | 0 <= i < |z| && z[i] == '`' ensures i + 1 < |z| && z[i + 1] == MARK {
      if i < |x| {
        assert x[i] == '`';
      } else {
        assert y[i - |x|] == '`';
      }
    }
  }

  lemma {:induction false} GuardEveryBacktick(b: string)
    ensures BacktickGuarded(ReplaceChar(b, '`', ['`', MARK]))
    decreases |b|
  {
    if |b| > 0 {
      GuardEveryBacktick(b[1..]);
      BacktickGuardedConcat(if b[0] == '`' then ['`', MARK] else [b[0]], ReplaceChar(b[1..], '`', ['`', MARK]));
    }
  }

  lemma {:induction false} GuardedHasNoFence(r: string)
    requires BacktickGuarded(r)
    ensures !Contains(r, "```")
    decreases |r|
  {
    if |r| > 0 {
      if |r| >= 3 {
        if r[0] == '`' {
          NotStartsWithAt(r, "```", 1);
        } else {
          NotStartsWithAt(r, "```", 0);
        }
      }
      assert BacktickGuarded(r[1..]) by {
        forall i | 0 <= i < |r[1..]| && r[1..][i] == '`' ensures i + 1 < |r[1..]| && r[1..][i + 1] == MARK {
          assert r[i + 1] == '`';
        }
      }
      GuardedHasNoFence(r[1..]);
    }
  }

  /** Taking the marker back out after each backtick. */
  function Unguard(r: string): string {
    ReplaceAll(r, ['`', MARK], "`")
  }

  lemma {:induction false} UnguardFenceGuardFixed(b: string)
    ensures Unguard(ReplaceChar(b, '`', ['`', MARK])) == b
    decreases |b|
  {
    if |b| > 0 {
      var t := ReplaceChar(b[1..], '`', ['`', MARK]);
      UnguardFenceGuardFixed(b[1..]);
      assert b == [b[0]] + b[1..];
      ReplaceCharCons(b[0], b[1..], '`', ['`', MARK]);
      if b[0] == '`' {
        ReplaceAllAtMatch(['`', MARK], t, "`");
      } else {
        NotStartsWithAt([b[0]] + t, ['`', MARK], 0);
        ReplaceAllSkip([b[0]] + t, ['`', MARK], "`");
        assert ([b[0]] + t)[1..] == t;
      }
    }
  }

  /** The source's guard is undone by taking the markers out again, as
      long as the body never held a backtick followed by the marker. */
  lemma {:induction false} UnguardFenceGuard(b: string)
    requires !Contains(b, ['`', MARK])
    ensures Unguard(FenceGuard(b)) == b
    decreases |b|
  {
    var u: string := ['`', MARK];
    if |b| < 3 {
      ReplaceAllAbsent(b, u, "`");
    } else if b[..3] == "```" {
      var t := FenceGuard(b[3..]);
      ContainsInSuffix(b, u, 3);
      UnguardFenceGuard(b[3..]);
      FenceGuardFirst(b[3..]);
      if |t| > 0 && t[0] == MARK {
        ContainsAt(b, u, 2);
      }
      UnguardGuardedFence(t);
      assert b == "```" + b[3..];
    } else {
      var t := FenceGuard(b[1..]);
      ContainsInSuffix(b, u, 1);
      UnguardFenceGuard(b[1..]);
      FenceGuardFirst(b[1..]);
      NotFenceFront(b, t);
      assert b == [b[0]] + b[1..];
    }
  }

  /** The guard keeps the first char of a non-empty body. */
  lemma FenceGuardFirst(s: string)
    ensures |FenceGuard(s)| == 0 <==> |s| == 0
    ensures |s| > 0 ==> FenceGuard(s)[0] == s[0]
  {
  }

  /** Taking the marks out of a replaced fence gives the fence back. */
  lemma UnguardGuardedFence(t: string)
    requires |t| == 0 || t[0] != MARK
    ensures Unguard(['`', MARK, '`', '`'] + t) == "```" + Unguard(t)
  {
    var u: string := ['`', MARK];
    assert ['`', MARK, '`', '`'] + t == u + (['`', '`'] + t);
    ReplaceAllAtMatch(u, ['`', '`'] + t, "`");
    NotStartsWithAt(['`', '`'] + t, u, 1);
    ReplaceAllSkip(['`', '`'] + t, u, "`");
    assert (['`', '`'] + t)[1..] == ['`'] + t;
    if |t| == 0 {
      assert ['`'] + t == ['`'];
    } else {
      NotStartsWithAt(['`'] + t, u, 1);
      ReplaceAllSkip(['`'] + t, u, "`");
      assert (['`'] + t)[1..] == t;
    }
  }

  /** A body that does not start with a fence keeps its first char. */
  lemma NotFenceFront(b: string, t: string)
    requires |b| >= 3 && b[..3] != "```" && t == FenceGuard(b[1..])
    requires !(b[0] == '`' && |t| > 0 && t[0] == MARK)
    ensures FenceGuard(b) == [b[0]] + t
    ensures Unguard([b[0]] + t) == [b[0]] + Unguard(t)
  {
    var u: string := ['`', MARK];
    if b[0] != '`' {
      NotStartsWithAt([b[0]] + t, u, 0);
    } else if |t| > 0 {
      NotStartsWithAt([b[0]] + t, u, 1);
    }
    if StartsWith([b[0]] + t, u) {
      assert false;
    }
    ReplaceAllSkip([b[0]] + t, u, "`");
    assert ([b[0]] + t)[1..] == t;
  }

  /** The corrected guard: a marker after every backtick. No fence can be
      left in the result, and the body is recovered by removing the marks. */
  function FenceGuardFixed(body: string): (r: string)
    ensures !Contains(r, "```")
    ensures Unguard(r) == body
  {
    GuardEveryBacktick(body);
    GuardedHasNoFence(ReplaceChar(body, '`', ['`', MARK]));
    UnguardFenceGuardFixed(body);
    ReplaceChar(body, '`', ['`', MARK])
  }

  /** Lines 193-204: the "Command body" field. Only bodies of fewer than
      1013 UTF-8 bytes are shown, inside a json code block; with the
      corrected guard nothing in the body can close that block. */
  function BodyField(body: string, mode: Escaping): (r: string)
    ensures Utf8Len(body) < DISPLAY_LIMIT ==>
      |r| >= 11 && r[..8] == "```json\n" && r[|r| - 3..] == "```"
    ensures Utf8Len(body) < DISPLAY_LIMIT && mode == Corrected ==>
      !Contains(r[8..|r| - 3], "```") && Unguard(r[8..|r| - 3]) == body
    ensures Utf8Len(body) < DISPLAY_LIMIT && mode == AsWritten && !Contains(body, ['`', MARK]) ==>
      Unguard(r[8..|r| - 3]) == body
    ensures Utf8Len(body) >= DISPLAY_LIMIT ==> r == TOO_LONG
  {
    if Utf8Len(body) < DISPLAY_LIMIT then
      var g := if mode == AsWritten then FenceGuard(body) else FenceGuardFixed(body);
      var r := "```json\n" + g + "```";
      assert r[8..|r| - 3] == g;
      if mode == AsWritten && !Contains(body, ['`', MARK]) then
        UnguardFenceGuard(body);
        r
      else
        r
    else TOO_LONG
  }

  /** One line of the command list. */
  function Line(name: string, desc: string, skip: bool): string {
    (if skip then "\n" else "") + "`" + name + "`  " + (if |desc| == 0 then NO_DESCRIPTION else desc) + "\n"
  }

  /** Lines 213-239 with the `newline` counter the closure mutates: the
      description is evaluated (counting an empty one) before the `skip`
      argument is. */
  function ListFrom(list: seq<(string, string)>, newline: nat): string
    decreases |list|
  {
    if |list| == 0 then []
    else
      var counted := if |list[0].1| == 0 then newline + 1 else newline;
      var skip := counted == 1;
      Line(list[0].0, list[0].1, skip) + ListFrom(list[1..], if skip then counted + 1 else counted)
  }

  /** The lines with no blank line anywhere. */
  function Plain(list: seq<(string, string)>): string
    decreases |list|
  {
    if |list| == 0 then [] else Line(list[0].0, list[0].1, false) + Plain(list[1..])
  }

  lemma {:induction false} ListAfterBlank(list: seq<(string, string)>, newline: nat)
    requires newline >= 2
    ensures ListFrom(list, newline) == Plain(list)
    decreases |list|
  {
    if |list| > 0 {
      var counted := if |list[0].1| == 0 then newline + 1 else newline;
      ListAfterBlank(list[1..], counted);
    }
  }

  /** The list puts one blank line before the first command without a
      description (index `j`), and nowhere else. */
  lemma {:induction false} ListLayout(list: seq<(string, string)>, j: nat)
    requires j <= |list|
    requires forall i :: 0 <= i < j ==> |list[i].1| > 0
    requires j == |list| || |list[j].1| == 0
    ensures ListFrom(list, 0) == Plain(list[..j]) + (if j < |list| then "\n" else "") + Plain(list[j..])
    decreases j
  {
    if |list| == 0 {
    } else if j == 0 {
      ListBlankFirst(list);
      assert list[..0] == [] && list[0..] == list;
    } else {
      ListLayout(list[1..], j - 1);
      ListPlainFirst(list, j);
    }
  }

  /** A first command without a description gets the blank line. */
  lemma ListBlankFirst(list: seq<(string, string)>)
    requires |list| > 0 && |list[0].1| == 0
    ensures ListFrom(list, 0) == "\n" + Plain(list)
  {
    var first := Line(list[0].0, list[0].1, false);
    assert ListFrom(list, 0) == Line(list[0].0, list[0].1, true) + ListFrom(list[1..], 2);
    ListAfterBlank(list[1..], 2);
    assert Line(list[0].0, list[0].1, true) == "\n" + first;
    assert Plain(list) == first + Plain(list[1..]);
  }

  /** A first command with a description is a plain line, and the
      counter is untouched. */
  lemma ListPlainFirst(list: seq<(string, string)>, j: nat)
    requires 0 < j <= |list| && |list[0].1| > 0
    requires ListFrom(list[1..], 0) == Plain(list[1..][..j - 1]) + (if j - 1 < |list[1..]| then "\n" else "") + Plain(list[1..][j - 1..])
    ensures ListFrom(list, 0) == Plain(list[..j]) + (if j < |list| then "\n" else "") + Plain(list[j..])
  {
    var first := Line(list[0].0, list[0].1, false);
    var nl: string := if j < |list| then "\n" else "";
    assert list[1..][..j - 1] == list[1..j];
    assert list[1..][j - 1..] == list[j..];
    var a, b := Plain(list[1..j]), Plain(list[j..]);
    assert ListFrom(list, 0) == first + (a + nl + b);
    assert list[..j][1..] == list[1..j];
    assert Plain(list[..j]) == first + a;
    ConcatRegroup(first, a, nl, b);
  }

  /** Lines 178-246. `list` is the guild's list of (name, description)
      pairs, `None` when it could not be read. */
  function Display(tokens: seq<string>, store: map<string, Entry>, list: Option<seq<(string, string)>>,
                   mode: Escaping): (r: Shown)
    ensures |tokens| > 0 && tokens[0] !in store ==> r == DisplayFailed(NOT_FOUND)
    ensures |tokens| > 0 && tokens[0] in store ==>
      r.ShowEmbed? && r.embed.title == "Custom command: " + tokens[0]
      && r.embed.description == store[tokens[0]].description
      && r.embed.fields == [("Command body", BodyField(store[tokens[0]].body, mode))]
    ensures |tokens| == 0 ==> (r == NothingShown <==> list.None?)
    ensures |tokens| == 0 && list.Some? ==>
      r == ShowEmbed(Embed("Custom commands", Some(ListFrom(list.value, 0)), []))
  {
    if |tokens| > 0 then
      var name := tokens[0];
      if name in store then
        ShowEmbed(Embed("Custom command: " + name, store[name].description, [("Command body", BodyField(store[name].body, mode))]))
      else
        DisplayFailed(NOT_FOUND)
    else
      match list
      case Some(l) => ShowEmbed(Embed("Custom commands", Some(ListFrom(l, 0)), []))
      case None => NothingShown
  }
}

=== FILE: floppa.dfy ===
/** The floppa image store: turning a requested number into an image id,
    and adding an image only when it is new. The database is a sequence
    of image addresses here; ids run from 1 to the largest id. */
module Floppa {
  import opened Wrappers

  // ---------------------------------------------------------------------
  // Signed 64-bit arithmetic as the index formula performs it

  const I64_MIN: int := -0x8000_0000_0000_0000
  const I64_MAX: int := 0x7FFF_FFFF_FFFF_FFFF
  const TWO_64: int := 0x1_0000_0000_0000_0000

  predicate IsI64(x: int) {
    I64_MIN <= x <= I64_MAX
  }

  /** Two's-complement wrap-around of an exact result back into `i64`
      (addition and subtraction in a build without overflow checks). */
  function Wrap(x: int): (r: int)
    ensures IsI64(r) && (r - x) % TWO_64 == 0
    ensures IsI64(x) ==> r == x
  {
    (x - I64_MIN) % TWO_64 + I64_MIN
  }

  function Abs(x: int): nat {
    if x < 0 then -x else x
  }

  // Division facts, each from the defining property of Euclidean `/` and `%`.

  lemma MulAtLeast(j: int, m: int)
    requires j >= 1 && m > 0
    ensures j * m >= m
    decreases j
  {
    if j > 1 {
      MulAtLeast(j - 1, m);
      assert j * m == (j - 1) * m + m;
    }
  }

  /** Quotient and remainder are the only ones with a remainder in `[0, m)`. */
  lemma DivModUnique(x: int, m: int, q: int, r: int)
    requires m > 0 && 0 <= r < m && x == q * m + r
    ensures x / m == q && x % m == r
  {
    var d := x / m - q;
    assert d * m == r - x % m by {
      assert x == (x / m) * m + x % m;
      assert d * m == (x / m) * m - q * m;
    }
    if d >= 1 {
      MulAtLeast(d, m);
    } else if d <= -1 {
      assert (-d) * m == -(d * m);
      MulAtLeast(-d, m);
    }
  }

  lemma MultipleMod(j: int, m: int)
    requires m > 0
    ensures (j * m) % m == 0
  {
    DivModUnique(j * m, m, j, 0);
  }

  /** Rust's `%` on `i64`: the remainder of the division truncated toward
      zero, so it takes the sign of the dividend. `None` where Rust
      panics: a zero divisor, and `i64::MIN % -1`, whose quotient
      overflows. */
  function Rem(a: int, b: int): (r: Option<int>)
    requires IsI64(a) && IsI64(b)
    ensures r.None? <==> b == 0 || (a == I64_MIN && b == -1)
    ensures r.Some? ==> (a - r.value) % Abs(b) == 0 && -(Abs(b) as int) < r.value < Abs(b)
    ensures r.Some? && a >= 0 ==> 0 <= r.value
    ensures r.Some? && a < 0 ==> r.value <= 0
  {
    if b == 0 || (a == I64_MIN && b == -1) then None
    else
      var r := if a >= 0 then Abs(a) % Abs(b) else -(Abs(a) % Abs(b));
      TruncatedRemainder(a, Abs(b));
      Some(r)
  }

  /** The truncated remainder differs from the dividend by a multiple of
      the divisor. */
  lemma TruncatedRemainder(a: int, m: int)
    requires m > 0
    ensures var q := Abs(a) % m; (a - (if a >= 0 then q else -q)) % m == 0
  {
    var k := Abs(a) / m;
    var q := Abs(a) % m;
    assert Abs(a) == k * m + q;
    if a >= 0 {
      assert a - q == k * m;
      MultipleMod(k, m);
    } else {
      assert (-k) * m == -(k * m);
      assert a + q == (-k) * m;
      MultipleMod(-k, m);
    }
  }

  /** The index formula of `get_floppa`,
      `(((n - 1) % max_len) + max_len) % max_len + 1`, in `i64` with
      wrapping `+`/`-`; `None` where one of the `%` panics. */
  function FloppaIndex(n: int, maxLen: int): (r: Option<int>)
    requires IsI64(n) && IsI64(maxLen)
    ensures r.None? <==> maxLen == 0 || (maxLen == -1 && n == I64_MIN + 1)
  {
    var a := Wrap(n - 1);
    match Rem(a, maxLen)
    case None => None
    case Some(b) =>
      var c := Wrap(b + maxLen);
      match Rem(c, maxLen)
      case None => assert false; None
      case Some(d) => Some(Wrap(d + 1))
  }

  /** The largest id for which the formula stays exact. */
  const SAFE_MAX: int := 0x4000_0000_0000_0000

  /** For ids up to 2^62 and any number but `i64::MIN`, the formula is the
      mathematical one: one more than the (never negative) remainder of
      `n - 1`. */
  lemma FloppaIndexIsFloorMod(n: int, maxLen: int)
    requires IsI64(n) && 0 < maxLen <= SAFE_MAX && n != I64_MIN
    ensures FloppaIndex(n, maxLen) == Some((n - 1) % maxLen + 1)
  {
    var m := maxLen;
    var a := n - 1;
    assert Wrap(a) == a;
    var b := Rem(a, m).value;
    var c := b + m;
    assert Wrap(c) == c && 0 < c < 2 * m;
    var d := Rem(c, m).value;
    assert 0 <= d < m;
    TwoSteps(a, b, d, m);
    assert Wrap(d + 1) == d + 1;
  }

  /** The two remainders of the formula, arithmetically: shifting a
      remainder of `a` by `m` and reducing again gives `a % m`. */
  lemma TwoSteps(a: int, b: int, d: int, m: int)
    requires m > 0 && (a - b) % m == 0 && (b + m - d) % m == 0 && 0 <= d < m
    ensures a % m == d
  {
    var q1 := (a - b) / m;
    var q2 := (b + m - d) / m;
    assert a - b == q1 * m;
    assert b + m - d == q2 * m;
    assert (q1 + q2 - 1) * m == q1 * m + q2 * m - m;
    DivModUnique(a, m, q1 + q2 - 1, d);
  }

  lemma ShiftMod(x: int, k: int, m: int)
    requires m > 0
    ensures (x + k * m) % m == x % m
  {
    var q := x / m;
    var r := x % m;
    assert x == q * m + r;
    assert (q + k) * m == q * m + k * m;
    DivModUnique(x + k * m, m, q + k, r);
  }

  /** The index lies in `[1, maxLen]`, also for `i64::MIN`, whose
      predecessor wraps to `i64::MAX`. */
  lemma IndexInRange(n: int, maxLen: int)
    requires IsI64(n) && 0 < maxLen <= SAFE_MAX
    ensures FloppaIndex(n, maxLen).Some?
    ensures 1 <= FloppaIndex(n, maxLen).value <= maxLen
  {
    if n == I64_MIN {
      var a := Wrap(n - 1);
      assert a == I64_MAX;
      var b := Rem(a, maxLen).value;
      var c := Wrap(b + maxLen);
      assert c == b + maxLen;
      var d := Rem(c, maxLen).value;
      assert 0 <= d < maxLen;
      assert Wrap(d + 1) == d + 1;
    } else {
      FloppaIndexIsFloorMod(n, maxLen);
    }
  }

  /** The index is congruent to the number asked for. */
  lemma IndexCongruent(n: int, maxLen: int)
    requires IsI64(n) && 0 < maxLen <= SAFE_MAX && n != I64_MIN
    ensures FloppaIndex(n, maxLen).Some?
    ensures (FloppaIndex(n, maxLen).value - n) % maxLen == 0
  {
    FloppaIndexIsFloorMod(n, maxLen);
    ModDiffMultiple(n - 1, maxLen);
    assert (n - 1) % maxLen + 1 - n == (n - 1) % maxLen - (n - 1);
  }

  lemma ModDiffMultiple(x: int, m: int)
    requires m > 0
    ensures (x % m - x) % m == 0
  {
    var q := x / m;
    assert x == q * m + x % m;
    assert x % m - x == (-q) * m;
    MultipleMod(-q, m);
  }

  /** Asking for `n` and for `n` plus whole turns gives the same image. */
  lemma IndexPeriodic(n: int, k: int, maxLen: int)
    requires IsI64(n) && IsI64(n + k * maxLen) && 0 < maxLen <= SAFE_MAX
    requires n != I64_MIN && n + k * maxLen != I64_MIN
    ensures FloppaIndex(n + k * maxLen, maxLen) == FloppaIndex(n, maxLen)
  {
    FloppaIndexIsFloorMod(n, maxLen);
    FloppaIndexIsFloorMod(n + k * maxLen, maxLen);
    ShiftMod(n - 1, k, maxLen);
    assert n + k * maxLen - 1 == (n - 1) + k * maxLen;
  }

  /** Numbers already in range are their own index, and 0 is the last one. */
  lemma IndexFixedPoints(n: int, maxLen: int)
    requires 0 < maxLen <= SAFE_MAX && 0 <= n <= maxLen
    ensures FloppaIndex(n, maxLen) == Some(if n == 0 then maxLen else n)
  {
    FloppaIndexIsFloorMod(n, maxLen);
    if n == 0 {
      DivModUnique(-1, maxLen, -1, maxLen - 1);
    } else {
      DivModUnique(n - 1, maxLen, 0, n - 1);
    }
  }

  // ---------------------------------------------------------------------
  // add_floppa

  const ALREADY_EXISTS := "Tried to add floppa that already exists!"

  /** What adding an image does: the images afterwards, and the message
      sent to the owner instead when the image was already stored. */
  datatype Added = Added(images: seq<string>, ownerDm: Option<string>)

  /** `add_floppa`: insert the address unless it is among the stored ones;
      otherwise insert nothing and tell the owner. */
  function AddFloppa(images: seq<string>, url: string): (r: Added)
    ensures url in r.images
    ensures url !in images <==> r.ownerDm.None?
    ensures url !in images ==> r.images == images + [url]
    ensures url in images ==> r == Added(images, Some(ALREADY_EXISTS))
  {
    if url !in images then Added(images + [url], None)
    else Added(images, Some(ALREADY_EXISTS))
  }

  predicate NoDuplicates(s: seq<string>) {
    forall i, j :: 0 <= i < j < |s| ==> s[i] != s[j]
  }

  /** Adding never stores an address twice, and adding the same address a
      second time changes nothing. */
  lemma AddFloppaKeepsUnique(images: seq<string>, url: string)
    requires NoDuplicates(images)
    ensures NoDuplicates(AddFloppa(images, url).images)
    ensures AddFloppa(AddFloppa(images, url).images, url).images == AddFloppa(images, url).images
  {
    var r := AddFloppa(images, url).images;
    if url !in images {
      forall i, j | 0 <= i < j < |r| ensures r[i] != r[j] {
        if j == |images| {
          assert r[i] == images[i];
        }
      }
    }
  }
}

=== FILE: general.dfy ===
/** The pure parts of the general commands: the digit grouping of the
    download counter, the CurseForge project choice and the text of its
    download button, the Forge version choice, and whom `user_info`
    describes. */
module General {
  import opened Wrappers
  import opened Strings

  // ---------------------------------------------------------------------
  // pretty_large_int

  /** `format!("{:03}", n)`: exactly three digits, zero-padded. */
  function Pad3(n: nat): (r: string)
    requires n < 1000
    ensures |r| == 3 && AllDigits(r)
  {
    [DigitChar(n / 100), DigitChar(n / 10 % 10), DigitChar(n % 10)]
  }

  /** The text with its commas taken out. */
  function StripCommas(s: string): string {
    if |s| == 0 then [] else (if s[0] == ',' then [] else [s[0]]) + StripCommas(s[1..])
  }

  /** Zero or more groups, each a comma followed by exactly three digits. */
  predicate Groups(t: string)
    decreases |t|
  {
    |t| == 0 || (|t| >= 4 && t[0] == ',' && AllDigits(t[1..4]) && Groups(t[4..]))
  }

  /** Number of chars before the first comma. */
  function HeadLen(s: string): (k: nat)
    ensures k <= |s| && ',' !in s[..k]
    ensures k < |s| ==> s[k] == ','
  {
    if |s| == 0 || s[0] == ',' then 0 else 1 + HeadLen(s[1..])
  }

  /** The shape of a grouped number: a first group of one to three digits,
      without leading zero unless it is the single digit 0, and then the
      three-digit groups. */
  predicate WellGrouped(s: string) {
    var k := HeadLen(s);
    1 <= k <= 3 && AllDigits(s[..k]) && (s[0] == '0' ==> k == 1) && Groups(s[k..])
  }

  lemma {:induction false} StripCommasConcat(a: string, b: string)
    ensures StripCommas(a + b) == StripCommas(a) + StripCommas(b)
    decreases |a|
  {
    if |a| == 0 {
      assert a + b == b;
    } else {
      assert (a + b)[1..] == a[1..] + b;
      StripCommasConcat(a[1..], b);
    }
  }

  lemma {:induction false} StripCommasDigits(s: string)
    requires AllDigits(s)
    ensures StripCommas(s) == s
    decreases |s|
  {
    if |s| > 0 {
      StripCommasDigits(s[1..]);
    }
  }

  lemma {:induction false} HeadLenDigits(h: string, t: string)
    requires AllDigits(h) && (|t| == 0 || t[0] == ',')
    ensures HeadLen(h + t) == |h|
    decreases |h|
  {
    if |h| > 0 {
      assert (h + t)[1..] == h[1..] + t;
      HeadLenDigits(h[1..], t);
    } else {
      assert h + t == t;
    }
  }

  /** Appending a digit to a positive number appends it to the text. */
  lemma DecimalAppend(q: nat, d: nat)
    requires q >= 1 && d < 10
    ensures Decimal(q * 10 + d) == Decimal(q) + [DigitChar(d)]
  {
    assert (q * 10 + d) / 10 == q && (q * 10 + d) % 10 == d;
  }

  /** The thousands split the loop performs, in text. */
  lemma DecimalThousands(q: nat, r: nat)
    requires q >= 1 && r < 1000
    ensures Decimal(q * 1000 + r) == Decimal(q) + Pad3(r)
  {
    var a := q * 10 + r / 100;
    var b := a * 10 + r / 10 % 10;
    DecimalAppend(q, r / 100);
    DecimalAppend(a, r / 10 % 10);
    DecimalAppend(b, r % 10);
    ThreeDigits(q, r);
    AppendThree(Decimal(q), DigitChar(r / 100), DigitChar(r / 10 % 10), DigitChar(r % 10));
  }

  lemma ThreeDigits(q: nat, r: nat)
    requires r < 1000
    ensures ((q * 10 + r / 100) * 10 + r / 10 % 10) * 10 + r % 10 == q * 1000 + r
  {
    assert r == r / 100 * 100 + r / 10 % 10 * 10 + r % 10;
  }

  lemma AppendThree(x: string, a: char, b: char, c: char)
    ensures x + [a] + [b] + [c] == x + [a, b, c]
  {
  }

  lemma DecimalShort(n: nat)
    requires n < 1000
    ensures |Decimal(n)| <= 3
  {
    if n >= 10 {
      assert |Decimal(n)| == |Decimal(n / 10)| + 1;
      if n / 10 >= 10 {
        assert |Decimal(n / 10)| == |Decimal(n / 100)| + 1;
      }
    }
  }

  /** One turn of the grouping loop: the last three digits move, behind a
      comma, to the front of the groups already written. */
  lemma MoveGroup(num: nat, tail: string)
    requires num >= 1000 && Groups(tail)
    ensures var t := "," + Pad3(num % 1000) + tail;
      Groups(t) && Decimal(num) + StripCommas(tail) == Decimal(num / 1000) + StripCommas(t)
  {
    var group := "," + Pad3(num % 1000);
    GroupInFront(group, tail);
    MoveGroupValue(num, group, tail);
  }

  lemma GroupInFront(group: string, tail: string)
    requires |group| == 4 && group[0] == ',' && AllDigits(group[1..4]) && Groups(tail)
    ensures Groups(group + tail)
  {
    assert (group + tail)[1..4] == group[1..4];
    assert (group + tail)[4..] == tail;
  }

  lemma MoveGroupValue(num: nat, group: string, tail: string)
    requires num >= 1000 && group == "," + Pad3(num % 1000)
    ensures Decimal(num) + StripCommas(tail) == Decimal(num / 1000) + StripCommas(group + tail)
  {
    assert num == num / 1000 * 1000 + num % 1000;
    DecimalThousands(num / 1000, num % 1000);
    StripCommasConcat(group, tail);
    StripCommasDigits(Pad3(num % 1000));
    assert StripCommas(group) == Pad3(num % 1000);
    ConcatAssoc(Decimal(num / 1000), Pad3(num % 1000), StripCommas(tail));
  }

  /** The first group in front of the others makes a well-grouped text,
      with a comma exactly when there is another group. */
  lemma LeadGroup(num: nat, tail: string)
    requires num < 1000 && Groups(tail) && (|tail| > 0 ==> num >= 1)
    ensures var s := Decimal(num) + tail;
      StripCommas(s) == Decimal(num) + StripCommas(tail) && WellGrouped(s) && (',' in s <==> |tail| > 0)
  {
    var head := Decimal(num);
    DecimalShort(num);
    var s := head + tail;
    StripCommasConcat(head, tail);
    StripCommasDigits(head);
    HeadLenDigits(head, tail);
    assert s[..|head|] == head && s[|head|..] == tail;
    assert ',' !in head;
    if |tail| > 0 {
      assert s[|head|] == ',';
    } else {
      assert s == head;
    }
  }

  /** `pretty_large_int`: the number in decimal with a comma between
      groups of three digits, counted from the right. */
  method PrettyLargeInt(x: nat) returns (s: string)
    ensures StripCommas(s) == Decimal(x)
    ensures WellGrouped(s)
    ensures ',' in s <==> x >= 1000
    ensures x == 0 ==> s == "0"
  {
    var num := x;
    var tail := "";
    while num / 1000 != 0
      invariant Decimal(num) + StripCommas(tail) == Decimal(x)
      invariant Groups(tail)
      invariant |tail| == 0 ==> num == x
      invariant |tail| > 0 ==> num >= 1 && x >= 1000
      decreases num
    {
      MoveGroup(num, tail);
      tail := "," + Pad3(num % 1000) + tail;
      num := num / 1000;
    }
    assert num % 1000 == num;
    LeadGroup(num, tail);
    s := Decimal(num % 1000) + tail;
  }

  // ---------------------------------------------------------------------
  // curseforge

  /** The project the command shows: Renewed when the first argument is
      "renewed" in any letter case, otherwise Legacy (also without any
      argument). */
  function ProjectChoice(arg: Option<string>, renewedId: nat, legacyId: nat): (id: nat)
    ensures LowerAscii(arg.GetOr("")) == "renewed" ==> id == renewedId
    ensures LowerAscii(arg.GetOr("")) != "renewed" ==> id == legacyId
  {
    if LowerAscii(arg.GetOr("")) == "renewed" then renewedId else legacyId
  }

  predicate IsVersionSeparator(c: char) {
    c == ' ' || c == '-' || c == '_' || c == '+' || c == 'v'
  }

  /** `rfind` with a set of chars: the index of the last one present. */
  function LastSeparator(s: string): (r: Option<nat>)
    ensures r.None? <==> forall k :: 0 <= k < |s| ==> !IsVersionSeparator(s[k])
    ensures r.Some? ==> (r.value < |s| && IsVersionSeparator(s[r.value])
      && forall k :: r.value < k < |s| ==> !IsVersionSeparator(s[k]))
    decreases |s|
  {
    if |s| == 0 then None
    else if IsVersionSeparator(s[|s| - 1]) then Some(|s| - 1)
    else LastSeparator(s[..|s| - 1])
  }

  /** The version shown on the download button: what follows the last
      separator in the file name, with every trailing ".jar" removed;
      empty when the name has no separator. It holds no separator. */
  function VersionText(fileName: string): (r: string)
    ensures forall k :: 0 <= k < |r| ==> !IsVersionSeparator(r[k])
  {
    match LastSeparator(fileName)
    case None => ""
    case Some(i) =>
      var after := fileName[i + 1..];
      var r := TrimSuffixes(after, ".jar");
      AfterSeparatorClean(fileName, i, after);
      PrefixClean(after, r);
      r
  }

  /** The version is the text after the last separator, cut before a run
      of ".jar" suffixes that it does not itself end with. */
  lemma VersionTextIsTrimmedTail(fileName: string)
    ensures LastSeparator(fileName).None? ==> VersionText(fileName) == ""
    ensures LastSeparator(fileName).Some? ==>
      var after := fileName[LastSeparator(fileName).value + 1..];
      var r := VersionText(fileName);
      |r| <= |after| && r == after[..|r|] && RepeatOf(after[|r|..], ".jar") && !EndsWith(r, ".jar")
  {
    match LastSeparator(fileName)
    case None =>
    case Some(i) =>
      var after := fileName[i + 1..];
      assert VersionText(fileName) == TrimSuffixes(after, ".jar");
  }

  /** Nothing after the last separator is a separator. */
  lemma AfterSeparatorClean(fileName: string, i: nat, after: string)
    requires LastSeparator(fileName) == Some(i) && after == fileName[i + 1..]
    ensures forall k :: 0 <= k < |after| ==> !IsVersionSeparator(after[k])
  {
    forall k | 0 <= k < |after| ensures !IsVersionSeparator(after[k]) {
      assert after[k] == fileName[i + 1 + k];
    }
  }

  lemma PrefixClean(s: string, r: string)
    requires |r| <= |s| && r == s[..|r|]
    requires forall k :: 0 <= k < |s| ==> !IsVersionSeparator(s[k])
    ensures forall k :: 0 <= k < |r| ==> !IsVersionSeparator(r[k])
  {
    forall k | 0 <= k < |r| ensures !IsVersionSeparator(r[k]) {
      assert r[k] == s[k];
    }
  }

  /** The text of the download button: it says "Legacy" exactly when the
      project shown is Legacy, and ends with the version text. */
  function DownloadLabel(id: nat, legacyId: nat, fileName: string): (r: string)
    ensures StartsWith(r, "Download Legacy ") <==> id == legacyId
    ensures StartsWith(r, "Download Renewed ") <==> id != legacyId
    ensures EndsWith(r, VersionText(fileName))
  {
    var v := VersionText(fileName);
    var text := "Download " + (if id == legacyId then "Legacy" else "Renewed") + " " + v;
    assert text[9] == (if id == legacyId then 'L' else 'R');
    assert text[|text| - |v|..] == v;
    text
  }

  /** The link to the file: the project page without its trailing slashes,
      then "/files/" and the file id. */
  function FileUrl(websiteUrl: string, fileId: nat): (r: string)
    ensures var k := |r| - |"/files/" + Decimal(fileId)|;
      0 <= k <= |websiteUrl| && r == websiteUrl[..k] + "/files/" + Decimal(fileId)
      && (k > 0 ==> websiteUrl[k - 1] != '/')
      && forall j :: k <= j < |websiteUrl| ==> websiteUrl[j] == '/'
  {
    TrimEndBy(websiteUrl, c => c == '/') + "/files/" + Decimal(fileId)
  }

  datatype CurseFile = CurseFile(id: nat, fileName: string)

  /** The fields of the API's project answer the command reads. */
  datatype Project = Project(id: nat, latestFiles: seq<CurseFile>, websiteUrl: string, downloadCount: nat)

  datatype CurseforgeCard =
    | WrongProject
    | NoLatestFile
    | Card(url: string, button: string, footer: string)

  /** `curseforge`, after the project has been fetched: a project that is
      not the one asked for, or one without files, only prints an error. */
  method Curseforge(arg: Option<string>, project: Project, renewedId: nat, legacyId: nat)
    returns (card: CurseforgeCard)
    ensures project.id != ProjectChoice(arg, renewedId, legacyId) <==> card == WrongProject
    ensures card == NoLatestFile <==> project.id == ProjectChoice(arg, renewedId, legacyId) && |project.latestFiles| == 0
    ensures card.Card? ==>
      var file := project.latestFiles[0];
      card.url == FileUrl(project.websiteUrl, file.id)
      && card.button == DownloadLabel(project.id, legacyId, file.fileName)
      && StartsWith(card.footer, "Total download count: ")
      && StripCommas(card.footer[22..]) == Decimal(project.downloadCount)
  {
    var id := ProjectChoice(arg, renewedId, legacyId);
    if project.id != id {
      return WrongProject;
    }
    if |project.latestFiles| == 0 {
      return NoLatestFile;
    }
    var file := project.latestFiles[0];
    var count := PrettyLargeInt(project.downloadCount);
    var footer := "Total download count: " + count;
    assert footer[..22] == "Total download count: " && footer[22..] == count;
    card := Card(FileUrl(project.websiteUrl, file.id), DownloadLabel(id, legacyId, file.fileName), footer);
  }

  // ---------------------------------------------------------------------
  // forge

  /** The Forge version and the Minecraft version it is for: only the exact
      word "legacy" (letter case counts) picks 1.7.10. */
  function ForgeChoice(arg: Option<string>): (r: (string, string))
    ensures arg == Some("legacy") <==> r == ("1614", "1.7.10")
    ensures arg != Some("legacy") <==> r == ("36.2.0", "1.16.5")
  {
    if arg.GetOr("") == "legacy" then ("1614", "1.7.10") else ("36.2.0", "1.16.5")
  }

  datatype ForgeCard = ForgeCard(description: string, author: string, button: string, link: string)

  /** `forge`: the card built around the choice; `template` is the
      download page address with `{mc}` standing for the Minecraft version. */
  function Forge(arg: Option<string>, template: string): (c: ForgeCard)
    ensures !Contains(c.link, "{mc}")
    ensures !Contains(template, "{mc}") ==> c.link == template
    ensures EndsWith(c.button, ForgeChoice(arg).1) && EndsWith(c.author, ForgeChoice(arg).1)
    ensures c.description ==
      "To function properly, the mod needs to run with Forge " + ForgeChoice(arg).0
      + " or later for Minecraft " + ForgeChoice(arg).1
  {
    var (version, mc) := ForgeChoice(arg);
    assert forall ch :: ch in mc ==> ch !in "{mc}";
    ReplaceAllLeavesNoPattern(template, "{mc}", mc);
    var link := if Contains(template, "{mc}") then ReplaceAll(template, "{mc}", mc)
      else (ReplaceAllAbsent(template, "{mc}", mc); ReplaceAll(template, "{mc}", mc));
    var button := "Download Forge for " + mc;
    var author := "Minecraft Forge for " + mc;
    assert button[|button| - |mc|..] == mc && author[|author| - |mc|..] == mc;
    ForgeCard(
      "To function properly, the mod needs to run with Forge " + version + " or later for Minecraft " + mc,
      author, button, link)
  }

  /** Every `{mc}` of the template becomes the Minecraft version: the link
      of `x + "{mc}" + y` is `x`, the version, then the link of `y`. With
      `Forge`'s own contract (a template without `{mc}` is kept), this fixes
      the link of every template. */
  lemma ForgeFillsPlaceholder(arg: Option<string>, x: string, y: string)
    requires '{' !in x
    ensures Forge(arg, x + "{mc}" + y).link == x + ForgeChoice(arg).1 + Forge(arg, y).link
  {
    var mc := ForgeChoice(arg).1;
    assert x + "{mc}" + y == x + ("{mc}" + y);
    ReplaceAllCopiesPrefix(x, "{mc}" + y, "{mc}", mc);
    ReplaceAllAtMatch("{mc}", y, mc);
  }

  // ---------------------------------------------------------------------
  // user_info

  /** Whom `user_info` describes: the first mentioned user, else the user
      the first argument names (`parsedArg`, `None` when it does not parse
      as a user), else the author. */
  function UserInfoTarget(mentions: seq<nat>, parsedArg: Option<nat>, author: nat): (u: nat)
    ensures |mentions| > 0 ==> u == mentions[0]
    ensures |mentions| == 0 && parsedArg.Some? ==> u == parsedArg.value
    ensures |mentions| == 0 && parsedArg.None? ==> u == author
    ensures u == author || u in mentions || parsedArg == Some(u)
  {
    if |mentions| > 0 then mentions[0]
    else if parsedArg.Some? then parsedArg.value
    else author
  }
}

=== FILE: json.dfy ===
/** The shape of a serde_json `Value`, the lookups the bot performs on it,
    and the string-literal layer of the JSON grammar. Parsing a whole
    document and pretty-printing stay outside the model: the operations
    that need them take them as function parameters. */
module JsonValues {
  import opened Wrappers
  import opened Strings

  datatype Json =
    | JNull
    | JBool(b: bool)
    | JNumber(n: int)
    | JString(s: string)
    | JArray(items: seq<Json>)
    | JObject(fields: map<string, Json>)

  /** `value[key]`: the field when `value` is an object holding `key`,
      and `Null` in every other case (serde never panics here). */
  function Index(value: Json, key: string): (r: Json)
    ensures value.JObject? && key in value.fields ==> r == value.fields[key]
    ensures !(value.JObject? && key in value.fields) ==> r == JNull
  {
    match value
    case JObject(fields) => if key in fields then fields[key] else JNull
    case _ => JNull
  }

  /** `value.as_bool()`. */
  function AsBool(value: Json): Option<bool> {
    if value.JBool? then Some(value.b) else None
  }

  /** `value.as_str()`. */
  function AsStr(value: Json): Option<string> {
    if value.JString? then Some(value.s) else None
  }

  /** `rest` is `value` with `key` taken out: the same object minus that
      one field, or `value` itself when it is not an object. */
  predicate Without(value: Json, key: string, rest: Json) {
    if value.JObject? then
      rest.JObject? && rest.fields.Keys == value.fields.Keys - {key}
      && forall k :: k in rest.fields ==> rest.fields[k] == value.fields[k]
    else
      rest == value
  }

  /** `value.as_object_mut().map(|m| m.remove(key).unwrap_or_default()).unwrap_or_default()`:
      the value with `key` taken out of it, and what was taken (`Null` when
      there was nothing, or when the value is not an object). */
  function TakeField(value: Json, key: string): (r: (Json, Json))
    ensures r.0.JObject? <==> value.JObject?
    ensures !value.JObject? ==> r.0 == value && r.1 == JNull
    ensures value.JObject? ==> r.0.fields.Keys == value.fields.Keys - {key}
    ensures value.JObject? ==> forall k :: k in r.0.fields ==> r.0.fields[k] == value.fields[k]
    ensures r.1 == Index(value, key)
    ensures Without(value, key, r.0) && Index(r.0, key) == JNull
  {
    match value
    case JObject(fields) =>
      (JObject(map k | k in fields && k != key :: fields[k]), if key in fields then fields[key] else JNull)
    case _ => (value, JNull)
  }

  // ---------------------------------------------------------------------
  // String literals (section 7 of RFC 8259)

  /** The char a two-char escape `\c` stands for. */
  function ShortEscape(c: char): Option<char> {
    if c == '"' then Some('"')
    else if c == '\\' then Some('\\')
    else if c == '/' then Some('/')
    else if c == 'b' then Some('\U{0008}')
    else if c == 'f' then Some('\U{000C}')
    else if c == 'n' then Some('\n')
    else if c == 'r' then Some('\r')
    else if c == 't' then Some('\t')
    else None
  }

  function HexValue(c: char): (r: Option<nat>)
    ensures r.Some? <==> ('0' <= c <= '9' || 'a' <= c <= 'f' || 'A' <= c <= 'F')
    ensures r.Some? ==> r.value < 16
  {
    if '0' <= c <= '9' then Some(c as int - '0' as int)
    else if 'a' <= c <= 'f' then Some(c as int - 'a' as int + 10)
    else if 'A' <= c <= 'F' then Some(c as int - 'A' as int + 10)
    else None
  }

  /** Four hex digits, most significant first: a code unit below 0x10000. */
  function Hex4(t: string): (r: Option<nat>)
    requires |t| == 4
    ensures r.Some? <==> forall k :: 0 <= k < 4 ==> HexValue(t[k]).Some?
    ensures r.Some? ==> r.value < 0x10000
  {
    match (HexValue(t[0]), HexValue(t[1]), HexValue(t[2]), HexValue(t[3]))
    case (Some(a), Some(b), Some(c), Some(d)) =>
      HexDigitsBound(a, b, c, d);
      Some(((a * 16 + b) * 16 + c) * 16 + d)
    case _ => None
  }

  lemma HexDigitsBound(a: nat, b: nat, c: nat, d: nat)
    requires a < 16 && b < 16 && c < 16 && d < 16
    ensures ((a * 16 + b) * 16 + c) * 16 + d < 0x10000
  {
    assert a * 16 + b <= 255;
    assert (a * 16 + b) * 16 + c <= 4095;
  }

  function Prepend(c: char, rest: Option<string>): Option<string> {
    match rest
    case Some(s) => Some([c] + s)
    case None => None
  }

  /** The text between the quotes of a JSON string literal, decoded; `None`
      when the grammar rejects it (an unknown escape, a raw control char, a
      raw quote, a lone backslash). */
  function UnescapeJsonString(t: string): Option<string>
    decreases |t|
  {
    if |t| == 0 then Some([])
    else if t[0] == '\\' then
      if |t| < 2 then None
      else if ShortEscape(t[1]).Some? then Prepend(ShortEscape(t[1]).value, UnescapeJsonString(t[2..]))
      else if t[1] == 'u' && |t| >= 6 then
        match Hex4(t[2..6])
        case Some(v) =>
          // surrogate pairs are not decoded here
          if v < 0xD800 || 0xE000 <= v then Prepend(v as char, UnescapeJsonString(t[6..])) else None
        case None => None
      else None
    else if t[0] == '"' || t[0] as int < 0x20 then None
    else Prepend(t[0], UnescapeJsonString(t[1..]))
  }
}

=== FILE: strings.dfy ===
/** The pieces of Rust's `str` API the bot relies on, on `seq<char>`:
    `replace` (with a string or a char pattern), `contains`, the trimming
    family, ASCII lower-casing, decimal formatting and UTF-8 length. */
module Strings {

  predicate StartsWith(s: string, prefix: string) {
    |prefix| <= |s| && s[..|prefix|] == prefix
  }

  predicate EndsWith(s: string, suffix: string) {
    |suffix| <= |s| && s[|s| - |suffix|..] == suffix
  }

  /** `s.contains(pat)`: `pat` occurs at some position of `s`. */
  predicate Contains(s: string, pat: string)
    decreases |s|
  {
    StartsWith(s, pat) || (|s| > 0 && Contains(s[1..], pat))
  }

  /** `s.replace(pat, rep)` for a non-empty pattern: occurrences are found
      from the left and never overlap; the text after a match is searched
      again from scratch. */
  function ReplaceAll(s: string, pat: string, rep: string): string
    requires |pat| > 0
    decreases |s|
  {
    if |s| < |pat| then s
    else if s[..|pat|] == pat then rep + ReplaceAll(s[|pat|..], pat, rep)
    else [s[0]] + ReplaceAll(s[1..], pat, rep)
  }

  /** `s.replace(c, rep)` with a char pattern: every `c` becomes `rep`. */
  function ReplaceChar(s: string, c: char, rep: string): string
    decreases |s|
  {
    if |s| == 0 then []
    else (if s[0] == c then rep else [s[0]]) + ReplaceChar(s[1..], c, rep)
  }

  // ---------------------------------------------------------------------
  // ReplaceAll: unfolding facts

  lemma ReplaceAllAtMatch(pat: string, t: string, rep: string)
    requires |pat| > 0
    ensures ReplaceAll(pat + t, pat, rep) == rep + ReplaceAll(t, pat, rep)
  {
    var s := pat + t;
    assert s[..|pat|] == pat;
    assert s[|pat|..] == t;
  }

  /** When `t` does not start with the pattern, its first char is copied. */
  lemma ReplaceAllSkip(t: string, pat: string, rep: string)
    requires |pat| > 0 && |t| > 0 && !StartsWith(t, pat)
    ensures ReplaceAll(t, pat, rep) == [t[0]] + ReplaceAll(t[1..], pat, rep)
  {
    if |t| < |pat| {
      assert ReplaceAll(t[1..], pat, rep) == t[1..];
      assert t == [t[0]] + t[1..];
    }
  }

  /** A mismatch at position `k` rules out a match at the front. */
  lemma NotStartsWithAt(t: string, pat: string, k: nat)
    requires k < |t| && k < |pat| && t[k] != pat[k]
    ensures !StartsWith(t, pat)
  {
    assert |pat| <= |t| ==> t[..|pat|][k] == t[k];
  }

  /** A prefix free of the pattern's first char is copied unchanged. */
  lemma {:induction false} ReplaceAllCopiesPrefix(x: string, rest: string, pat: string, rep: string)
    requires |pat| > 0 && pat[0] !in x
    ensures ReplaceAll(x + rest, pat, rep) == x + ReplaceAll(rest, pat, rep)
    decreases |x|
  {
    if |x| == 0 {
      assert x + rest == rest;
    } else {
      NotStartsWithAt(x + rest, pat, 0);
      ReplaceAllSkip(x + rest, pat, rep);
      assert (x + rest)[1..] == x[1..] + rest;
      ReplaceAllCopiesPrefix(x[1..], rest, pat, rep);
    }
  }

  /** Replacing a pattern that does not occur changes nothing. */
  lemma {:induction false} ReplaceAllAbsent(s: string, pat: string, rep: string)
    requires |pat| > 0 && !Contains(s, pat)
    ensures ReplaceAll(s, pat, rep) == s
    decreases |s|
  {
    if |s| >= |pat| {
      ReplaceAllAbsent(s[1..], pat, rep);
      assert s == [s[0]] + s[1..];
    }
  }

  /** A pattern holding a char that `s` lacks does not occur in `s`. */
  lemma {:induction false} MissingCharNotContained(s: string, pat: string, c: char)
    requires c in pat && c !in s
    ensures !Contains(s, pat)
    decreases |s|
  {
    if |s| > 0 {
      MissingCharNotContained(s[1..], pat, c);
    }
  }

  /** Until the first char of `rep` shows up, the output of ReplaceAll is a
      copy of the input. */
  lemma {:induction false} ReplaceAllKeepsPrefix(s: string, pat: string, rep: string, m: nat)
    requires |pat| > 0 && |rep| > 0
    requires m <= |ReplaceAll(s, pat, rep)|
    ensures (m <= |s| && ReplaceAll(s, pat, rep)[..m] == s[..m]) || rep[0] in ReplaceAll(s, pat, rep)[..m]
    decreases |s|
  {
    var r := ReplaceAll(s, pat, rep);
    if |s| < |pat| || m == 0 {
    } else if s[..|pat|] == pat {
      assert r == rep + ReplaceAll(s[|pat|..], pat, rep);
      assert r[..m][0] == rep[0];
    } else {
      var t := ReplaceAll(s[1..], pat, rep);
      assert r == [s[0]] + t;
      ReplaceAllKeepsPrefix(s[1..], pat, rep, m - 1);
      if m - 1 <= |s[1..]| && t[..m - 1] == s[1..][..m - 1] {
        assert r[..m] == [s[0]] + t[..m - 1];
        assert s[..m] == [s[0]] + s[1..][..m - 1];
      } else {
        var j :| 0 <= j < m - 1 && t[..m - 1][j] == rep[0];
        assert r[..m][j + 1] == rep[0];
      }
    }
  }

  lemma {:induction false} RepFreePrefixNotContained(rep: string, t: string, pat: string)
    requires |pat| > 0
    requires forall c :: c in rep ==> c !in pat
    requires !Contains(t, pat)
    ensures !Contains(rep + t, pat)
    decreases |rep|
  {
    if |rep| == 0 {
      assert rep + t == t;
    } else {
      assert (rep + t)[0] == rep[0];
      assert rep[0] in rep;
      assert rep[0] !in pat;
      assert !StartsWith(rep + t, pat);
      RepFreePrefixNotContained(rep[1..], t, pat);
      assert (rep + t)[1..] == rep[1..] + t;
    }
  }

  /** If the replacement is non-empty and shares no char with the pattern,
      no occurrence of the pattern is left afterwards, not even one formed
      across the edge of a replacement. */
  lemma {:induction false} ReplaceAllLeavesNoPattern(s: string, pat: string, rep: string)
    requires |pat| > 0 && |rep| > 0
    requires forall c :: c in rep ==> c !in pat
    ensures !Contains(ReplaceAll(s, pat, rep), pat)
    decreases |s|
  {
    var r := ReplaceAll(s, pat, rep);
    if |s| < |pat| {
      ShortNotContained(s, pat);
    } else if s[..|pat|] == pat {
      ReplaceAllLeavesNoPattern(s[|pat|..], pat, rep);
      RepFreePrefixNotContained(rep, ReplaceAll(s[|pat|..], pat, rep), pat);
    } else {
      var t := ReplaceAll(s[1..], pat, rep);
      ReplaceAllLeavesNoPattern(s[1..], pat, rep);
      assert r == [s[0]] + t;
      assert r[1..] == t;
      assert rep[0] in rep;
      if StartsWith(r, pat) {
        ReplaceAllKeepsPrefix(s, pat, rep, |pat|);
        assert false;
      }
    }
  }

  lemma {:induction false} ShortNotContained(s: string, pat: string)
    requires |s| < |pat|
    ensures !Contains(s, pat)
    decreases |s|
  {
    if |s| > 0 {
      ShortNotContained(s[1..], pat);
    }
  }

  // ---------------------------------------------------------------------
  // ReplaceChar

  lemma {:induction false} ReplaceCharConcat(x: string, y: string, c: char, rep: string)
    ensures ReplaceChar(x + y, c, rep) == ReplaceChar(x, c, rep) + ReplaceChar(y, c, rep)
    decreases |x|
  {
    if |x| == 0 {
      assert x + y == y;
    } else {
      var head := if x[0] == c then rep else [x[0]];
      assert (x + y)[0] == x[0];
      assert (x + y)[1..] == x[1..] + y;
      ReplaceCharConcat(x[1..], y, c, rep);
      calc {
        ReplaceChar(x + y, c, rep);
        head + ReplaceChar(x[1..] + y, c, rep);
        head + (ReplaceChar(x[1..], c, rep) + ReplaceChar(y, c, rep));
        (head + ReplaceChar(x[1..], c, rep)) + ReplaceChar(y, c, rep);
      }
    }
  }

  lemma ReplaceCharOne(d: char, c: char, rep: string)
    ensures ReplaceChar([d], c, rep) == if d == c then rep else [d]
  {
    assert [d][1..] == [];
  }

  lemma ReplaceCharCons(d: char, t: string, c: char, rep: string)
    ensures ReplaceChar([d] + t, c, rep) == (if d == c then rep else [d]) + ReplaceChar(t, c, rep)
  {
    assert ([d] + t)[0] == d;
    assert ([d] + t)[1..] == t;
  }

  lemma {:induction false} ReplaceCharAbsent(s: string, c: char, rep: string)
    requires c !in s
    ensures ReplaceChar(s, c, rep) == s
    decreases |s|
  {
    if |s| > 0 {
      ReplaceCharAbsent(s[1..], c, rep);
      assert s == [s[0]] + s[1..];
    }
  }

  /** Replacing a char by a single char keeps the length and changes
      exactly the positions that held it. */
  lemma {:induction false} ReplaceCharSwap(s: string, c: char, d: char)
    ensures |ReplaceChar(s, c, [d])| == |s|
    ensures forall i :: 0 <= i < |s| ==> ReplaceChar(s, c, [d])[i] == if s[i] == c then d else s[i]
    decreases |s|
  {
    if |s| > 0 {
      ReplaceCharSwap(s[1..], c, d);
      var r := ReplaceChar(s, c, [d]);
      assert r == [if s[0] == c then d else s[0]] + ReplaceChar(s[1..], c, [d]);
      forall i | 0 < i < |s| ensures r[i] == if s[i] == c then d else s[i] {
        assert r[i] == ReplaceChar(s[1..], c, [d])[i - 1];
        assert s[1..][i - 1] == s[i];
      }
    }
  }

  /** The char-pattern replace is the string-pattern replace with a
      one-char pattern. */
  lemma {:induction false} ReplaceCharIsReplaceAll(s: string, c: char, rep: string)
    ensures ReplaceChar(s, c, rep) == ReplaceAll(s, [c], rep)
    decreases |s|
  {
    if |s| > 0 {
      ReplaceCharIsReplaceAll(s[1..], c, rep);
      if s[0] == c {
        assert s[..1] == [c];
      } else {
        assert s[..1] != [c];
      }
    }
  }

  // ---------------------------------------------------------------------
  // Trimming

  /** `trim_start_matches(p)`: drop leading chars satisfying `p`. */
  function TrimStartBy(s: string, p: char -> bool): (r: string)
    ensures |r| <= |s| && r == s[|s| - |r|..]
    ensures forall k :: 0 <= k < |s| - |r| ==> p(s[k])
    ensures |r| > 0 ==> !p(r[0])
    decreases |s|
  {
    if |s| > 0 && p(s[0]) then TrimStartBy(s[1..], p) else s
  }

  /** `trim_end_matches(p)`: drop trailing chars satisfying `p`. */
  function TrimEndBy(s: string, p: char -> bool): (r: string)
    ensures |r| <= |s| && r == s[..|r|]
    ensures forall k :: |r| <= k < |s| ==> p(s[k])
    ensures |r| > 0 ==> !p(r[|r| - 1])
    decreases |s|
  {
    if |s| > 0 && p(s[|s| - 1]) then TrimEndBy(s[..|s| - 1], p) else s
  }

  /** `trim_matches(p)`: both ends. */
  function TrimBy(s: string, p: char -> bool): string {
    TrimEndBy(TrimStartBy(s, p), p)
  }

  /** `t` is `pat` repeated zero or more times. */
  predicate RepeatOf(t: string, pat: string)
    requires |pat| > 0
    decreases |t|
  {
    |t| == 0 || (EndsWith(t, pat) && RepeatOf(t[..|t| - |pat|], pat))
  }

  /** `trim_end_matches(pat)` with a string pattern: strip the suffix `pat`
      as long as it is there. */
  function TrimSuffixes(s: string, pat: string): (r: string)
    requires |pat| > 0
    ensures |r| <= |s| && r == s[..|r|]
    ensures RepeatOf(s[|r|..], pat)
    ensures !EndsWith(r, pat)
    decreases |s|
  {
    if EndsWith(s, pat) then
      var r := TrimSuffixes(s[..|s| - |pat|], pat);
      assert s[|r|..][..|s[|r|..]| - |pat|] == s[..|s| - |pat|][|r|..];
      r
    else
      s
  }

  /** Rust's `char::is_whitespace` (the Unicode White_Space property). */
  predicate IsWhitespace(c: char) {
    ('\t' <= c <= '\r') || c == ' ' || c == '\U{0085}' || c == '\U{00A0}'
    || c == '\U{1680}' || ('\U{2000}' <= c <= '\U{200A}') || c == '\U{2028}'
    || c == '\U{2029}' || c == '\U{202F}' || c == '\U{205F}' || c == '\U{3000}'
  }

  /** `str::trim`. */
  function Trim(s: string): string {
    TrimBy(s, IsWhitespace)
  }

  // ---------------------------------------------------------------------
  // Case, digits, lengths

  function LowerChar(c: char): char {
    if 'A' <= c <= 'Z' then (c as int + 32) as char else c
  }

  /** `to_lowercase`, for the ASCII letters. */
  function LowerAscii(s: string): (r: string)
    ensures |r| == |s|
    ensures forall i :: 0 <= i < |s| ==> r[i] == LowerChar(s[i])
  {
    seq(|s|, i requires 0 <= i < |s| => LowerChar(s[i]))
  }

  predicate IsDigit(c: char) {
    '0' <= c <= '9'
  }

  predicate AllDigits(s: string) {
    forall i :: 0 <= i < |s| ==> IsDigit(s[i])
  }

  function DigitChar(d: nat): (c: char)
    requires d < 10
    ensures IsDigit(c)
  {
    (48 + d) as char
  }

  /** `format!("{}", n)` for a natural number. */
  function Decimal(n: nat): (r: string)
    ensures |r| >= 1 && AllDigits(r)
    ensures r[0] == '0' <==> n == 0
    decreases n
  {
    if n < 10 then [DigitChar(n)] else Decimal(n / 10) + [DigitChar(n % 10)]
  }

  /** Number of bytes of the UTF-8 encoding of `c`. */
  function Utf8Width(c: char): nat {
    if c as int < 0x80 then 1
    else if c as int < 0x800 then 2
    else if c as int < 0x10000 then 3
    else 4
  }

  /** `s.len()`: Rust measures strings in UTF-8 bytes, not in chars. */
  function Utf8Len(s: string): (n: nat)
    ensures |s| <= n <= 4 * |s|
    decreases |s|
  {
    if |s| == 0 then 0 else Utf8Width(s[0]) + Utf8Len(s[1..])
  }

  /** An occurrence at position `k` is an occurrence. */
  lemma {:induction false} ContainsAt(s: string, pat: string, k: nat)
    requires k + |pat| <= |s| && s[k..k + |pat|] == pat
    ensures Contains(s, pat)
    decreases k
  {
    if k == 0 {
      assert s[..|pat|] == pat;
    } else {
      assert s[1..][k - 1..k - 1 + |pat|] == pat;
      ContainsAt(s[1..], pat, k - 1);
    }
  }

  /** An occurrence in a suffix is an occurrence. */
  lemma {:induction false} ContainsInSuffix(s: string, pat: string, k: nat)
    requires k <= |s|
    ensures Contains(s[k..], pat) ==> Contains(s, pat)
    decreases k
  {
    if k == 0 {
      assert s[0..] == s;
    } else {
      assert s[1..][k - 1..] == s[k..];
      ContainsInSuffix(s[1..], pat, k - 1);
    }
  }

  /** Regrouping concatenations, stated once so that proofs about long
      texts need not rediscover it. */
  lemma ConcatAssoc<T>(x: seq<T>, y: seq<T>, z: seq<T>)
    ensures x + (y + z) == (x + y) + z
  {
  }

  lemma ConcatRegroup<T>(w: seq<T>, x: seq<T>, y: seq<T>, z: seq<T>)
    ensures w + (x + y + z) == (w + x) + y + z
  {
  }
}

=== FILE: template_codec.dfy ===
/** The text transformations behind custom commands
    (src/commands/custom_commands.rs): the marking pass over a stored
    body, positional placeholders and argument escaping, and the unescape
    pass before the JSON parse.

    A stored body is a JSON text. Its `$` signs are "marked" by putting
    U+200B in front of them, so that a placeholder is U+200B `$` followed
    by a decimal index. Values substituted for placeholders have their own
    `$` signs escaped with a backslash, so they cannot form new
    placeholders. */
module TemplateCodec {
  import opened Wrappers
  import opened Strings
  import opened JsonValues

  /** U+200B ZERO WIDTH SPACE, the invisible marker. */
  const MARK: char := '\U{200B}'
  const MARKED_DOLLAR: string := [MARK, '$']
  const ESCAPED_DOLLAR: string := ['\\', '$']
  const ESCAPED_MARKED: string := ['\\', MARK, '$']

  predicate IsGuard(c: char) {
    c == MARK || c == '\\'
  }

  predicate GuardedTail(s: string) {
    forall k :: 0 < k < |s| && s[k] == '$' ==> IsGuard(s[k - 1])
  }

  /** Every `$` of `s` is marked or escaped: a marker or a backslash stands
      right before it. */
  predicate Guarded(s: string) {
    (|s| > 0 ==> s[0] != '$') && GuardedTail(s)
  }

  /** Every `$` of `s` has a backslash right before it. */
  predicate Escaped(s: string) {
    forall k :: 0 <= k < |s| && s[k] == '$' ==> 0 < k && s[k - 1] == '\\'
  }

  /** Number of marked dollars (U+200B immediately followed by `$`), i.e.
      of placeholder prefixes a later substitution can still match. */
  function Marks(s: string): nat
    decreases |s|
  {
    if |s| < 2 then 0 else (if s[0] == MARK && s[1] == '$' then 1 else 0) + Marks(s[1..])
  }

  // =======================================================================
  // Encoding (custom_commands.rs lines 28-35)

  function MarkChar(c: char): string {
    if c == '$' then MARKED_DOLLAR else [c]
  }

  /** `replace('$', "\u{200B}$")`. */
  function MarkAll(s: string): string {
    ReplaceChar(s, '$', MARKED_DOLLAR)
  }

  /** `replace("\\\u{200B}$", "\\$")`. */
  function UnmarkAuthored(s: string): string {
    ReplaceAll(s, ESCAPED_MARKED, ESCAPED_DOLLAR)
  }

  /** The stored body as the argument loop sees it. A body without `$` is
      passed through untouched; otherwise every `$` is marked and then the
      marks right after a backslash are taken back out. */
  function Encode(body: string): (r: string)
    ensures Guarded(r)
    ensures '$' !in body ==> r == body
  {
    MarkedMatchesReference(body);
    EncodeRefDollarFree(body);
    EncodeRefGuarded(body);
    if '$' in body then UnmarkAuthored(MarkAll(body)) else body
  }

  /** An independent, char-by-char reading of the encoding: an authored
      `\$` stays as it is, any other `$` gets the marker. */
  function EncodeRef(s: string): string
    decreases |s|
  {
    if |s| == 0 then []
    else if |s| > 1 && s[0] == '\\' && s[1] == '$' then ESCAPED_DOLLAR + EncodeRef(s[2..])
    else MarkChar(s[0]) + EncodeRef(s[1..])
  }

  lemma MarkAllCons(c: char, t: string)
    ensures MarkAll([c] + t) == MarkChar(c) + MarkAll(t)
  {
    ReplaceCharCons(c, t, '$', MARKED_DOLLAR);
  }

  lemma MarkAllFirst(s: string)
    ensures |MarkAll(s)| > 0 ==> |s| > 0 && MarkAll(s)[0] != '$'
  {
    if |s| > 0 {
      assert s == [s[0]] + s[1..];
      MarkAllCons(s[0], s[1..]);
    }
  }

  lemma {:induction false} MarkedMatchesReference(s: string)
    ensures UnmarkAuthored(MarkAll(s)) == EncodeRef(s)
    decreases |s|
  {
    if |s| == 0 {
    } else if |s| > 1 && s[0] == '\\' && s[1] == '$' {
      assert s == [s[0]] + ([s[1]] + s[2..]);
      MarkAllCons(s[0], [s[1]] + s[2..]);
      MarkAllCons(s[1], s[2..]);
      assert MarkAll(s) == ESCAPED_MARKED + MarkAll(s[2..]);
      ReplaceAllAtMatch(ESCAPED_MARKED, MarkAll(s[2..]), ESCAPED_DOLLAR);
      MarkedMatchesReference(s[2..]);
    } else {
      assert s == [s[0]] + s[1..];
      MarkAllCons(s[0], s[1..]);
      var m := MarkAll(s[1..]);
      MarkedMatchesReference(s[1..]);
      if s[0] == '$' {
        assert MarkAll(s) == [MARK] + (['$'] + m);
        UnmarkMarkedDollar(m);
      } else {
        UnmarkOtherFront(s, m);
      }
    }
  }

  /** A marked `$` in front is not an authored escape and stays marked. */
  lemma UnmarkMarkedDollar(m: string)
    ensures UnmarkAuthored([MARK] + (['$'] + m)) == MARKED_DOLLAR + UnmarkAuthored(m)
  {
    NotStartsWithAt([MARK] + (['$'] + m), ESCAPED_MARKED, 0);
    ReplaceAllSkip([MARK] + (['$'] + m), ESCAPED_MARKED, ESCAPED_DOLLAR);
    assert ([MARK] + (['$'] + m))[1..] == ['$'] + m;
    NotStartsWithAt(['$'] + m, ESCAPED_MARKED, 0);
    ReplaceAllSkip(['$'] + m, ESCAPED_MARKED, ESCAPED_DOLLAR);
    assert (['$'] + m)[1..] == m;
    ConcatAssoc([MARK], ['$'], UnmarkAuthored(m));
  }

  /** Any other first char, a backslash not followed by `$` included, is
      copied. */
  lemma UnmarkOtherFront(s: string, m: string)
    requires |s| > 0 && s[0] != '$' && !(|s| > 1 && s[0] == '\\' && s[1] == '$')
    requires m == MarkAll(s[1..])
    ensures UnmarkAuthored([s[0]] + m) == [s[0]] + UnmarkAuthored(m)
  {
    if s[0] != '\\' {
      NotStartsWithAt([s[0]] + m, ESCAPED_MARKED, 0);
    } else if |s| > 1 {
      assert s[1..] == [s[1]] + s[2..];
      MarkAllCons(s[1], s[2..]);
      MarkAllFirst(s[2..]);
      assert m == MarkChar(s[1]) + MarkAll(s[2..]);
      if s[1] == MARK {
        if |s| > 2 {
          assert ([s[0]] + m)[2] == MarkAll(s[2..])[0];
          NotStartsWithAt([s[0]] + m, ESCAPED_MARKED, 2);
        }
      } else {
        NotStartsWithAt([s[0]] + m, ESCAPED_MARKED, 1);
      }
    }
    ReplaceAllSkip([s[0]] + m, ESCAPED_MARKED, ESCAPED_DOLLAR);
    assert ([s[0]] + m)[1..] == m;
  }

  lemma {:induction false} EncodeRefDollarFree(s: string)
    ensures '$' !in s ==> EncodeRef(s) == s
    decreases |s|
  {
    if |s| > 0 {
      EncodeRefDollarFree(s[1..]);
      assert s == [s[0]] + s[1..];
    }
  }

  lemma {:induction false} EncodeRefFirst(s: string)
    ensures |EncodeRef(s)| > 0 ==> EncodeRef(s)[0] != '$'
  {
  }

  lemma GuardedConcat(x: string, y: string)
    requires Guarded(x) && Guarded(y)
    ensures Guarded(x + y)
  {
    var z := x + y;
    forall k | 0 < k < |z| && z[k] == '$' ensures IsGuard(z[k - 1]) {
      if k < |x| {
        assert x[k] == '$';
      } else {
        assert y[k - |x|] == '$';
        assert z[k - 1] == y[k - |x| - 1];
      }
    }
  }

  lemma {:induction false} EncodeRefGuarded(s: string)
    ensures Guarded(EncodeRef(s))
    decreases |s|
  {
    if |s| == 0 {
    } else if |s| > 1 && s[0] == '\\' && s[1] == '$' {
      EncodeRefGuarded(s[2..]);
      GuardedConcat(ESCAPED_DOLLAR, EncodeRef(s[2..]));
    } else {
      EncodeRefGuarded(s[1..]);
      GuardedConcat(MarkChar(s[0]), EncodeRef(s[1..]));
    }
  }

  /** The encoding is exactly the char-by-char reference reading. */
  lemma EncodeAgreesWithReference(s: string)
    ensures Encode(s) == EncodeRef(s)
  {
    MarkedMatchesReference(s);
    EncodeRefDollarFree(s);
  }

  lemma {:induction false} EncodeRefConcat(x: string, y: string)
    requires |x| == 0 || x[|x| - 1] != '\\'
    ensures EncodeRef(x + y) == EncodeRef(x) + EncodeRef(y)
    decreases |x|
  {
    var z := x + y;
    if |x| == 0 {
      assert z == y;
    } else if |x| > 1 && x[0] == '\\' && x[1] == '$' {
      assert z[0] == '\\' && z[1] == '$';
      assert z[2..] == x[2..] + y;
      assert |x| > 2 ==> x[2..][|x| - 3] == x[|x| - 1];
      EncodeRefConcat(x[2..], y);
      assert EncodeRef(z) == ESCAPED_DOLLAR + EncodeRef(z[2..]);
    } else {
      assert z[0] == x[0];
      assert !(|z| > 1 && z[0] == '\\' && z[1] == '$') by {
        if |x| > 1 {
          assert z[1] == x[1];
        }
      }
      assert z[1..] == x[1..] + y;
      assert |x| > 1 ==> x[1..][|x| - 2] == x[|x| - 1];
      EncodeRefConcat(x[1..], y);
      assert EncodeRef(z) == MarkChar(x[0]) + EncodeRef(z[1..]);
    }
  }

  /** An authored `\$` comes out of the encoding as `\$`, unmarked, with
      the text around it encoded on its own. */
  lemma AuthoredEscapeKept(x: string, y: string)
    requires |x| == 0 || x[|x| - 1] != '\\'
    ensures Encode(x + ESCAPED_DOLLAR + y) == EncodeRef(x) + ESCAPED_DOLLAR + EncodeRef(y)
  {
    EncodeAgreesWithReference(x + ESCAPED_DOLLAR + y);
    ConcatAssoc(x, ESCAPED_DOLLAR, y);
    EncodeRefConcat(x, ESCAPED_DOLLAR + y);
    EncodeRefAuthoredFront(y);
    ConcatAssoc(EncodeRef(x), ESCAPED_DOLLAR, EncodeRef(y));
  }

  lemma EncodeRefAuthoredFront(y: string)
    ensures EncodeRef(ESCAPED_DOLLAR + y) == ESCAPED_DOLLAR + EncodeRef(y)
  {
    assert (ESCAPED_DOLLAR + y)[2..] == y;
  }

  // =======================================================================
  // Decoding (line 50, and again line 89)

  /** `replace("\\$", "$")`: the only unescape applied before parsing; the
      markers are never stripped. */
  function Decode(t: string): string {
    ReplaceAll(t, ESCAPED_DOLLAR, "$")
  }

  /** What a body renders as when no argument reaches it: an authored `\$`
      becomes `$`, every other `$` keeps its marker. */
  function LiteralRef(s: string): string
    decreases |s|
  {
    if |s| == 0 then []
    else if |s| > 1 && s[0] == '\\' && s[1] == '$' then "$" + LiteralRef(s[2..])
    else MarkChar(s[0]) + LiteralRef(s[1..])
  }

  /** Decode copies a char that cannot begin an escaped dollar. */
  lemma DecodeCons(c: char, e: string)
    requires c != '\\' || |e| == 0 || e[0] != '$'
    ensures Decode([c] + e) == [c] + Decode(e)
  {
    if c != '\\' {
      NotStartsWithAt([c] + e, ESCAPED_DOLLAR, 0);
    } else if |e| > 0 {
      NotStartsWithAt([c] + e, ESCAPED_DOLLAR, 1);
    }
    ReplaceAllSkip([c] + e, ESCAPED_DOLLAR, "$");
    assert ([c] + e)[1..] == e;
  }

  lemma {:induction false} DecodeEncodeRef(s: string)
    ensures Decode(EncodeRef(s)) == LiteralRef(s)
    decreases |s|
  {
    if |s| == 0 {
    } else if |s| > 1 && s[0] == '\\' && s[1] == '$' {
      DecodeEncodeRef(s[2..]);
      DecodeAuthoredFront(s);
    } else {
      DecodeEncodeRef(s[1..]);
      DecodeMarkedFront(s);
    }
  }

  /** An authored `\$` in front decodes to `$`. */
  lemma DecodeAuthoredFront(s: string)
    requires |s| > 1 && s[0] == '\\' && s[1] == '$'
    requires Decode(EncodeRef(s[2..])) == LiteralRef(s[2..])
    ensures Decode(EncodeRef(s)) == LiteralRef(s)
  {
    assert EncodeRef(s) == ESCAPED_DOLLAR + EncodeRef(s[2..]);
    assert LiteralRef(s) == "$" + LiteralRef(s[2..]);
    ReplaceAllAtMatch(ESCAPED_DOLLAR, EncodeRef(s[2..]), "$");
  }

  /** Any other first char comes out of decoding as encoding left it. */
  lemma DecodeMarkedFront(s: string)
    requires |s| > 0 && !(|s| > 1 && s[0] == '\\' && s[1] == '$')
    requires Decode(EncodeRef(s[1..])) == LiteralRef(s[1..])
    ensures Decode(EncodeRef(s)) == LiteralRef(s)
  {
    var e := EncodeRef(s[1..]);
    assert EncodeRef(s) == MarkChar(s[0]) + e;
    assert LiteralRef(s) == MarkChar(s[0]) + LiteralRef(s[1..]);
    EncodeRefFirst(s[1..]);
    if s[0] == '$' {
      DecodeDollarFront(e);
    } else {
      DecodeCons(s[0], e);
    }
  }

  /** A marked `$` is copied by decoding. */
  lemma DecodeDollarFront(e: string)
    ensures Decode(MARKED_DOLLAR + e) == MARKED_DOLLAR + Decode(e)
  {
    ConcatAssoc([MARK], ['$'], e);
    assert MARKED_DOLLAR + e == [MARK] + (['$'] + e);
    DecodeCons(MARK, ['$'] + e);
    DecodeCons('$', e);
    ConcatAssoc([MARK], ['$'], Decode(e));
    assert [MARK] + (['$'] + Decode(e)) == MARKED_DOLLAR + Decode(e);
  }

  /** Encoding then decoding a body, with no argument substituted, is the
      reference reading LiteralRef. */
  lemma DecodeEncode(s: string)
    ensures Decode(Encode(s)) == LiteralRef(s)
  {
    EncodeAgreesWithReference(s);
    DecodeEncodeRef(s);
  }

  /** A body without `$` survives encoding and decoding unchanged. */
  lemma {:induction false} RoundTripWithoutDollar(s: string)
    requires '$' !in s
    ensures Encode(s) == s
    ensures Decode(Encode(s)) == s
  {
    MissingCharNotContained(s, ESCAPED_DOLLAR, '$');
    ReplaceAllAbsent(s, ESCAPED_DOLLAR, "$");
  }

  // =======================================================================
  // Argument escaping (lines 41-46)

  predicate IsQuote(c: char) {
    c == '"'
  }

  /** The five replaces of lines 42-46, in the source's order: `$`, then
      `@`, then backslash, then newline, then double quote. */
  function EscapeValue(t: string): string {
    ReplaceChar(ReplaceChar(ReplaceChar(ReplaceChar(ReplaceChar(
      t, '$', ESCAPED_DOLLAR), '@', ['@', MARK]), '\\', ['\\', '\\']), '\n', ['\\', 'n']), '"', ['\\', '"'])
  }

  /** An argument as it is substituted: surrounding double quotes trimmed,
      then escaped. Every `$` in the result carries a backslash, so the
      result holds no marked dollar. */
  function EscapeArg(arg: string): (r: string)
    ensures Escaped(r)
    ensures Marks(r) == 0
  {
    var t := TrimBy(arg, IsQuote);
    EscapeValueIsCharwise(t);
    EscapeRefEscaped(t);
    EscapedHasNoMarks(EscapeValue(t));
    EscapeValue(t)
  }

  /** Char-by-char reading of EscapeValue. Because the backslash is doubled
      after `$` has been escaped, a `$` ends up behind two backslashes. */
  function EscapeCharRef(c: char): string {
    if c == '$' then ['\\', '\\', '$']
    else if c == '@' then ['@', MARK]
    else if c == '\\' then ['\\', '\\']
    else if c == '\n' then ['\\', 'n']
    else if c == '"' then ['\\', '"']
    else [c]
  }

  function EscapeRef(t: string): string
    decreases |t|
  {
    if |t| == 0 then [] else EscapeCharRef(t[0]) + EscapeRef(t[1..])
  }

  lemma EscapeValueConcat(x: string, y: string)
    ensures EscapeValue(x + y) == EscapeValue(x) + EscapeValue(y)
  {
    var x1, y1 := ReplaceChar(x, '$', ESCAPED_DOLLAR), ReplaceChar(y, '$', ESCAPED_DOLLAR);
    ReplaceCharConcat(x, y, '$', ESCAPED_DOLLAR);
    var x2, y2 := ReplaceChar(x1, '@', ['@', MARK]), ReplaceChar(y1, '@', ['@', MARK]);
    ReplaceCharConcat(x1, y1, '@', ['@', MARK]);
    var x3, y3 := ReplaceChar(x2, '\\', ['\\', '\\']), ReplaceChar(y2, '\\', ['\\', '\\']);
    ReplaceCharConcat(x2, y2, '\\', ['\\', '\\']);
    var x4, y4 := ReplaceChar(x3, '\n', ['\\', 'n']), ReplaceChar(y3, '\n', ['\\', 'n']);
    ReplaceCharConcat(x3, y3, '\n', ['\\', 'n']);
    ReplaceCharConcat(x4, y4, '"', ['\\', '"']);
  }

  lemma EscapeValueOne(c: char)
    ensures EscapeValue([c]) == EscapeCharRef(c)
  {
    ReplaceCharOne(c, '$', ESCAPED_DOLLAR);
    var s1 := ReplaceChar([c], '$', ESCAPED_DOLLAR);
    if c == '$' {
      assert s1 == ['\\', '$'];
      ReplaceCharAbsent(s1, '@', ['@', MARK]);
      ReplaceCharConcat(['\\'], ['$'], '\\', ['\\', '\\']);
      assert ['\\'] + ['$'] == s1;
      ReplaceCharOne('\\', '\\', ['\\', '\\']);
      ReplaceCharOne('$', '\\', ['\\', '\\']);
      var s3 := ['\\', '\\', '$'];
      assert ReplaceChar(s1, '\\', ['\\', '\\']) == s3;
      ReplaceCharAbsent(s3, '\n', ['\\', 'n']);
      ReplaceCharAbsent(s3, '"', ['\\', '"']);
    } else {
      ReplaceCharOne(c, '@', ['@', MARK]);
      var s2 := ReplaceChar(s1, '@', ['@', MARK]);
      if c == '@' {
        ReplaceCharAbsent(s2, '\\', ['\\', '\\']);
        ReplaceCharAbsent(s2, '\n', ['\\', 'n']);
        ReplaceCharAbsent(s2, '"', ['\\', '"']);
      } else {
        ReplaceCharOne(c, '\\', ['\\', '\\']);
        var s3 := ReplaceChar(s2, '\\', ['\\', '\\']);
        if c == '\\' {
          ReplaceCharAbsent(s3, '\n', ['\\', 'n']);
          ReplaceCharAbsent(s3, '"', ['\\', '"']);
        } else {
          ReplaceCharOne(c, '\n', ['\\', 'n']);
          var s4 := ReplaceChar(s3, '\n', ['\\', 'n']);
          if c == '\n' {
            ReplaceCharAbsent(s4, '"', ['\\', '"']);
          } else {
            ReplaceCharOne(c, '"', ['\\', '"']);
          }
        }
      }
    }
  }

  /** The five chained replaces act char by char, as EscapeRef says. */
  lemma {:induction false} EscapeValueIsCharwise(t: string)
    ensures EscapeValue(t) == EscapeRef(t)
    decreases |t|
  {
    if |t| > 0 {
      assert t == [t[0]] + t[1..];
      EscapeValueConcat([t[0]], t[1..]);
      EscapeValueOne(t[0]);
      EscapeValueIsCharwise(t[1..]);
    }
  }

  lemma EscapedConcat(x: string, y: string)
    requires Escaped(x) && Escaped(y)
    ensures Escaped(x + y)
  {
    var z := x + y;
    forall k | 0 <= k < |z| && z[k] == '$' ensures 0 < k && z[k - 1] == '\\' {
      if k < |x| {
        assert x[k] == '$';
      } else {
        assert y[k - |x|] == '$';
        assert z[k - 1] == y[k - |x| - 1];
      }
    }
  }

  lemma {:induction false} EscapeRefEscaped(t: string)
    ensures Escaped(EscapeRef(t))
    decreases |t|
  {
    if |t| > 0 {
      EscapeRefEscaped(t[1..]);
      EscapedConcat(EscapeCharRef(t[0]), EscapeRef(t[1..]));
    }
  }

  lemma {:induction false} EscapedHasNoMarks(s: string)
    requires forall k :: 0 < k < |s| && s[k] == '$' ==> s[k - 1] != MARK
    ensures Marks(s) == 0
    decreases |s|
  {
    if |s| >= 2 {
      assert s[1] == '$' ==> s[0] != MARK;
      EscapedHasNoMarks(s[1..]);
    }
  }

  lemma EscapedIsGuarded(s: string)
    requires Escaped(s)
    ensures Guarded(s) && Marks(s) == 0
  {
    EscapedHasNoMarks(s);
  }

  /** Default values (line 84) are only `$`-escaped. */
  function EscapeDefault(s: string): (r: string)
    ensures Escaped(r)
  {
    DollarEscapeEscaped(s);
    ReplaceChar(s, '$', ESCAPED_DOLLAR)
  }

  lemma {:induction false} DollarEscapeEscaped(s: string)
    ensures Escaped(ReplaceChar(s, '$', ESCAPED_DOLLAR))
    decreases |s|
  {
    if |s| > 0 {
      DollarEscapeEscaped(s[1..]);
      EscapedConcat(if s[0] == '$' then ESCAPED_DOLLAR else [s[0]], ReplaceChar(s[1..], '$', ESCAPED_DOLLAR));
    }
  }

  // =======================================================================
  // Placeholders (lines 36-48, 79-87)

  /** `format!("\u{200B}${}", i)`. */
  function Placeholder(i: nat): (p: string)
    ensures |p| >= 3 && p[..2] == MARKED_DOLLAR && !IsGuard(p[|p| - 1])
  {
    MARKED_DOLLAR + Decimal(i)
  }

  /** `body.replace(&placeholder(i), value)`. */
  function Substitute(body: string, i: nat, value: string): string {
    ReplaceAll(body, Placeholder(i), value)
  }

  /** Substitutes `values[j]` for placeholder `start + j`, for j = 0, 1, …
      in that order; a `None` entry is skipped but still uses up its index. */
  function FillFrom(body: string, values: seq<Option<string>>, start: nat): string
    decreases |values|
  {
    if |values| == 0 then body
    else
      var next := if values[0].Some? then Substitute(body, start, values[0].value) else body;
      FillFrom(next, values[1..], start + 1)
  }

  /** Replacing a pattern that ends in a non-guard char by a guarded value
      keeps every `$` guarded; and a `$` at the front of the output was
      already at the front of the input. */
  lemma {:induction false} ReplaceKeepsGuard(s: string, pat: string, rep: string)
    requires |pat| > 0 && !IsGuard(pat[|pat| - 1])
    requires Guarded(rep) && GuardedTail(s)
    ensures GuardedTail(ReplaceAll(s, pat, rep))
    ensures |ReplaceAll(s, pat, rep)| > 0 && ReplaceAll(s, pat, rep)[0] == '$' ==> |s| > 0 && s[0] == '$'
    decreases |s|
  {
    if |s| < |pat| {
    } else if s[..|pat|] == pat {
      var u := s[|pat|..];
      var t := ReplaceAll(u, pat, rep);
      TailOfGuarded(s, |pat|);
      ReplaceKeepsGuard(u, pat, rep);
      if |u| > 0 {
        assert s[|pat| - 1] == pat[|pat| - 1];
        assert u[0] == s[|pat|];
      }
      GuardedTailConcat(rep, t);
    } else {
      var t := ReplaceAll(s[1..], pat, rep);
      TailOfGuarded(s, 1);
      ReplaceKeepsGuard(s[1..], pat, rep);
      GuardedTailConcat([s[0]], t);
    }
  }

  lemma TailOfGuarded(s: string, n: nat)
    requires n <= |s| && GuardedTail(s)
    ensures GuardedTail(s[n..])
  {
    var u := s[n..];
    forall k | 0 < k < |u| && u[k] == '$' ensures IsGuard(u[k - 1]) {
      assert s[n + k] == u[k];
      assert s[n + k - 1] == u[k - 1];
    }
  }

  lemma GuardedTailConcat(x: string, y: string)
    requires GuardedTail(x) && GuardedTail(y)
    requires |x| > 0 && |y| > 0 && y[0] == '$' ==> IsGuard(x[|x| - 1])
    requires |x| > 0 ==> x[0] != '$' || |x| == 1
    ensures GuardedTail(x + y)
  {
    var z := x + y;
    forall k | 0 < k < |z| && z[k] == '$' ensures IsGuard(z[k - 1]) {
      if k < |x| {
        assert x[k] == '$';
      } else if k > |x| {
        assert y[k - |x|] == '$';
        assert z[k - 1] == y[k - |x| - 1];
      } else {
        assert y[0] == '$';
      }
    }
  }

  lemma {:induction false} MarksConcat(x: string, y: string)
    ensures Marks(x + y) == Marks(x) + Marks(y)
      + (if |x| > 0 && |y| > 0 && x[|x| - 1] == MARK && y[0] == '$' then 1 else 0)
    decreases |x|
  {
    if |x| == 0 {
      assert x + y == y;
    } else if |x| == 1 {
      assert (x + y)[1..] == y;
    } else {
      assert (x + y)[1..] == x[1..] + y;
      MarksConcat(x[1..], y);
    }
  }

  /** Replacing a placeholder-shaped pattern by a value without marked
      dollars never increases the number of marked dollars. */
  lemma {:induction false} ReplaceAddsNoMarks(s: string, pat: string, rep: string)
    requires |pat| > 0 && !IsGuard(pat[|pat| - 1])
    requires Guarded(rep) && Marks(rep) == 0 && GuardedTail(s)
    ensures Marks(ReplaceAll(s, pat, rep)) <= Marks(s)
    decreases |s|
  {
    if |s| < |pat| {
    } else if s[..|pat|] == pat {
      var u := s[|pat|..];
      var t := ReplaceAll(u, pat, rep);
      TailOfGuarded(s, |pat|);
      ReplaceKeepsGuard(u, pat, rep);
      ReplaceAddsNoMarks(u, pat, rep);
      if |u| > 0 {
        assert s[|pat| - 1] == pat[|pat| - 1];
        assert u[0] == s[|pat|];
      }
      MarksConcat(rep, t);
      assert s == pat + u;
      MarksConcat(pat, u);
    } else {
      var t := ReplaceAll(s[1..], pat, rep);
      TailOfGuarded(s, 1);
      ReplaceKeepsGuard(s[1..], pat, rep);
      ReplaceAddsNoMarks(s[1..], pat, rep);
      MarksConcat([s[0]], t);
      assert s == [s[0]] + s[1..];
      MarksConcat([s[0]], s[1..]);
    }
  }

  predicate AllEscaped(values: seq<Option<string>>) {
    forall j :: 0 <= j < |values| && values[j].Some? ==> Escaped(values[j].value)
  }

  /** Injection safety of the substitution loop: when the body has every
      `$` marked or escaped and every value has its `$` escaped, the result
      still has every `$` marked or escaped, and it holds no more marked
      dollars (active placeholder prefixes) than the body did. A value can
      therefore never be read as a placeholder by a later substitution. */
  lemma {:induction false} FillFromIsSafe(body: string, values: seq<Option<string>>, start: nat)
    requires Guarded(body) && AllEscaped(values)
    ensures Guarded(FillFrom(body, values, start))
    ensures Marks(FillFrom(body, values, start)) <= Marks(body)
    decreases |values|
  {
    if |values| > 0 {
      var next := body;
      if values[0].Some? {
        var v := values[0].value;
        EscapedIsGuarded(v);
        ReplaceKeepsGuard(body, Placeholder(start), v);
        ReplaceAddsNoMarks(body, Placeholder(start), v);
        next := Substitute(body, start, v);
      }
      FillFromIsSafe(next, values[1..], start + 1);
    }
  }

  lemma {:induction false} ContainsPlaceholderHasMark(s: string, i: nat)
    requires Contains(s, Placeholder(i))
    ensures Marks(s) > 0
    decreases |s|
  {
    var p := Placeholder(i);
    if StartsWith(s, p) {
      assert s[0] == p[0] && s[1] == p[1];
    } else {
      ContainsPlaceholderHasMark(s[1..], i);
    }
  }

  /** A body with no marked dollar is left alone by the substitution loop. */
  lemma {:induction false} FillFromWithoutMarks(body: string, values: seq<Option<string>>, start: nat)
    requires Marks(body) == 0
    ensures FillFrom(body, values, start) == body
    decreases |values|
  {
    if |values| > 0 {
      if values[0].Some? {
        if Contains(body, Placeholder(start)) {
          ContainsPlaceholderHasMark(body, start);
        }
        ReplaceAllAbsent(body, Placeholder(start), values[0].value);
      }
      FillFromWithoutMarks(body, values[1..], start + 1);
    }
  }

  /** `str::replace` does not look at what follows a match, so the
      placeholder for index 1 also rewrites the front of the one for
      index 10. */
  lemma PlaceholderPrefixClash()
    ensures Substitute(Placeholder(10), 1, "x") == "x0"
  {
    assert Decimal(1) == "1";
    assert Decimal(10) == Decimal(1) + [DigitChar(0)];
    assert Placeholder(10) == Placeholder(1) + "0";
    ReplaceAllAtMatch(Placeholder(1), "0", "x");
  }

  // =======================================================================
  // The order of the argument escapes (see the README's findings)

  /** As written, an argument holding `$` reaches the JSON parser as `\$`,
      which is not a JSON escape: the parse fails. */
  lemma DollarArgumentBreaksJson()
    ensures EscapeArg("$") == ['\\', '\\', '$']
    ensures Decode(EscapeArg("$")) == ESCAPED_DOLLAR
    ensures UnescapeJsonString(Decode(EscapeArg("$"))) == None
  {
    assert TrimStartBy("$", IsQuote) == "$";
    assert TrimBy("$", IsQuote) == "$";
    EscapeValueIsCharwise("$");
    assert EscapeRef("$") == EscapeCharRef('$') + EscapeRef([]);
    var e := ['\\', '\\', '$'];
    NotStartsWithAt(e, ESCAPED_DOLLAR, 1);
    ReplaceAllSkip(e, ESCAPED_DOLLAR, "$");
    assert e[1..] == ESCAPED_DOLLAR + [];
    ReplaceAllAtMatch(ESCAPED_DOLLAR, [], "$");
  }

  /** As written, a default value holding a double quote is put into the
      JSON text raw, where it ends the string literal early. */
  lemma QuoteDefaultBreaksJson()
    ensures EscapeDefault("\"") == "\""
    ensures UnescapeJsonString(Decode(EscapeDefault("\""))) == None
  {
    ReplaceCharOne('"', '$', ESCAPED_DOLLAR);
    MissingCharNotContained("\"", ESCAPED_DOLLAR, '$');
    ReplaceAllAbsent("\"", ESCAPED_DOLLAR, "$");
  }

  /** The corrected escape: backslashes are doubled before `$` is escaped.
      The corrected pipeline applies it to default values as well. */
  function EscapeValueFixed(t: string): string {
    ReplaceChar(ReplaceChar(ReplaceChar(ReplaceChar(ReplaceChar(
      t, '\\', ['\\', '\\']), '$', ESCAPED_DOLLAR), '@', ['@', MARK]), '\n', ['\\', 'n']), '"', ['\\', '"'])
  }

  function EscapeCharFixed(c: char): string {
    if c == '$' then ESCAPED_DOLLAR
    else if c == '@' then ['@', MARK]
    else if c == '\\' then ['\\', '\\']
    else if c == '\n' then ['\\', 'n']
    else if c == '"' then ['\\', '"']
    else [c]
  }

  function EscapeFixedRef(t: string): string
    decreases |t|
  {
    if |t| == 0 then [] else EscapeCharFixed(t[0]) + EscapeFixedRef(t[1..])
  }

  lemma EscapeValueFixedConcat(x: string, y: string)
    ensures EscapeValueFixed(x + y) == EscapeValueFixed(x) + EscapeValueFixed(y)
  {
    var m := ['@', MARK];
    var x1, y1 := ReplaceChar(x, '\\', ['\\', '\\']), ReplaceChar(y, '\\', ['\\', '\\']);
    ReplaceCharConcat(x, y, '\\', ['\\', '\\']);
    var x2, y2 := ReplaceChar(x1, '$', ESCAPED_DOLLAR), ReplaceChar(y1, '$', ESCAPED_DOLLAR);
    ReplaceCharConcat(x1, y1, '$', ESCAPED_DOLLAR);
    var x3, y3 := ReplaceChar(x2, '@', m), ReplaceChar(y2, '@', m);
    ReplaceCharConcat(x2, y2, '@', m);
    var x4, y4 := ReplaceChar(x3, '\n', ['\\', 'n']), ReplaceChar(y3, '\n', ['\\', 'n']);
    ReplaceCharConcat(x3, y3, '\n', ['\\', 'n']);
    ReplaceCharConcat(x4, y4, '"', ['\\', '"']);
  }

  lemma EscapeValueFixedOne(c: char)
    ensures EscapeValueFixed([c]) == EscapeCharFixed(c)
  {
    var m := ['@', MARK];
    ReplaceCharOne(c, '\\', ['\\', '\\']);
    var s1 := ReplaceChar([c], '\\', ['\\', '\\']);
    if c == '\\' {
      ReplaceCharAbsent(s1, '$', ESCAPED_DOLLAR);
      ReplaceCharAbsent(s1, '@', m);
      ReplaceCharAbsent(s1, '\n', ['\\', 'n']);
      ReplaceCharAbsent(s1, '"', ['\\', '"']);
    } else {
      ReplaceCharOne(c, '$', ESCAPED_DOLLAR);
      var s2 := ReplaceChar(s1, '$', ESCAPED_DOLLAR);
      if c == '$' {
        ReplaceCharAbsent(s2, '@', m);
        ReplaceCharAbsent(s2, '\n', ['\\', 'n']);
        ReplaceCharAbsent(s2, '"', ['\\', '"']);
      } else {
        ReplaceCharOne(c, '@', m);
        var s3 := ReplaceChar(s2, '@', m);
        if c == '@' {
          ReplaceCharAbsent(s3, '\n', ['\\', 'n']);
          ReplaceCharAbsent(s3, '"', ['\\', '"']);
        } else {
          ReplaceCharOne(c, '\n', ['\\', 'n']);
          var s4 := ReplaceChar(s3, '\n', ['\\', 'n']);
          if c == '\n' {
            ReplaceCharAbsent(s4, '"', ['\\', '"']);
          } else {
            ReplaceCharOne(c, '"', ['\\', '"']);
          }
        }
      }
    }
  }

  lemma {:induction false} EscapeValueFixedIsCharwise(t: string)
    ensures EscapeValueFixed(t) == EscapeFixedRef(t)
    decreases |t|
  {
    if |t| > 0 {
      assert t == [t[0]] + t[1..];
      EscapeValueFixedConcat([t[0]], t[1..]);
      EscapeValueFixedOne(t[0]);
      EscapeValueFixedIsCharwise(t[1..]);
    }
  }

  /** No raw control char other than newline: the only one the escape
      handles. */
  predicate JsonSafeText(t: string) {
    forall k :: 0 <= k < |t| ==> t[k] == '\n' || t[k] as int >= 0x20
  }

  /** What Decode leaves of one escaped char. */
  function DecodedCharFixed(c: char): string {
    if c == '$' then "$" else EscapeCharFixed(c)
  }

  lemma DecodeFixedCons(c: char, e: string)
    requires |e| > 0 ==> e[0] != '$'
    ensures Decode(EscapeCharFixed(c) + e) == DecodedCharFixed(c) + Decode(e)
  {
    var p := EscapeCharFixed(c);
    if c == '$' {
      ReplaceAllAtMatch(ESCAPED_DOLLAR, e, "$");
    } else if |p| == 2 {
      DecodeCons(p[1], e);
      DecodeCons(p[0], [p[1]] + e);
      assert p + e == [p[0]] + ([p[1]] + e);
    } else {
      DecodeCons(c, e);
    }
  }

  lemma UnescapePlain(c: char, d: string)
    requires c != '\\' && c != '"' && c as int >= 0x20
    ensures UnescapeJsonString([c] + d) == Prepend(c, UnescapeJsonString(d))
  {
    assert ([c] + d)[1..] == d;
  }

  lemma UnescapeShort(x: char, d: string)
    requires ShortEscape(x).Some?
    ensures UnescapeJsonString(['\\', x] + d) == Prepend(ShortEscape(x).value, UnescapeJsonString(d))
  {
    assert (['\\', x] + d)[2..] == d;
  }

  lemma UnescapeFixedCons(c: char, d: string)
    requires c == '\n' || c as int >= 0x20
    requires UnescapeJsonString(d).Some?
    ensures UnescapeJsonString(DecodedCharFixed(c) + d)
         == Some((if c == '@' then ['@', MARK] else [c]) + UnescapeJsonString(d).value)
  {
    if c == '@' {
      UnescapePlain(MARK, d);
      UnescapePlain('@', [MARK] + d);
      assert ['@', MARK] + d == ['@'] + ([MARK] + d);
      var v := UnescapeJsonString(d).value;
      assert ['@'] + ([MARK] + v) == ['@', MARK] + v;
      assert DecodedCharFixed(c) == ['@', MARK];
    } else if c == '\\' {
      UnescapeShort('\\', d);
    } else if c == '\n' {
      UnescapeShort('n', d);
    } else if c == '"' {
      UnescapeShort('"', d);
    } else {
      UnescapePlain(c, d);
    }
  }

  lemma {:induction false} FixedValueSurvives(t: string)
    requires JsonSafeText(t)
    ensures UnescapeJsonString(Decode(EscapeFixedRef(t))) == Some(ReplaceChar(t, '@', ['@', MARK]))
    decreases |t|
  {
    if |t| > 0 {
      var c := t[0];
      var e := EscapeFixedRef(t[1..]);
      assert JsonSafeText(t[1..]) by {
        forall k | 0 <= k < |t[1..]| ensures t[1..][k] == '\n' || t[1..][k] as int >= 0x20 {
          assert t[1..][k] == t[k + 1];
        }
      }
      FixedValueSurvives(t[1..]);
      assert t == [c] + t[1..];
      ReplaceCharCons(c, t[1..], '@', ['@', MARK]);
      assert |e| > 0 ==> e[0] != '$';
      DecodeFixedCons(c, e);
      UnescapeFixedCons(c, Decode(e));
    }
  }

  lemma {:induction false} EscapeFixedRefEscaped(t: string)
    ensures Escaped(EscapeFixedRef(t))
    decreases |t|
  {
    if |t| > 0 {
      EscapeFixedRefEscaped(t[1..]);
      EscapedConcat(EscapeCharFixed(t[0]), EscapeFixedRef(t[1..]));
    }
  }

  lemma TrimQuotesKeepsSafe(arg: string)
    ensures JsonSafeText(arg) ==> JsonSafeText(TrimBy(arg, IsQuote))
  {
    var u := TrimStartBy(arg, IsQuote);
    var t := TrimEndBy(u, IsQuote);
    if JsonSafeText(arg) {
      forall k | 0 <= k < |t| ensures t[k] == '\n' || t[k] as int >= 0x20 {
        assert t[k] == u[k] == arg[|arg| - |u| + k];
      }
    }
  }

  lemma FixedRoundTrip(t: string)
    ensures JsonSafeText(t) ==>
      UnescapeJsonString(Decode(EscapeValueFixed(t))) == Some(ReplaceChar(t, '@', ['@', MARK]))
  {
    EscapeValueFixedIsCharwise(t);
    if JsonSafeText(t) {
      FixedValueSurvives(t);
    }
  }

  /** An argument as the corrected pipeline substitutes it. Every `$` of
      the result is escaped, so the result holds no marked dollar, and it
      decodes back to the trimmed argument with its mentions defused. */
  function EscapeArgFixed(arg: string): (r: string)
    ensures Escaped(r) && Marks(r) == 0
    ensures JsonSafeText(arg) ==>
      UnescapeJsonString(Decode(r)) == Some(ReplaceChar(TrimBy(arg, IsQuote), '@', ['@', MARK]))
  {
    var t := TrimBy(arg, IsQuote);
    EscapeValueFixedIsCharwise(t);
    EscapeFixedRefEscaped(t);
    EscapedHasNoMarks(EscapeValueFixed(t));
    TrimQuotesKeepsSafe(arg);
    FixedRoundTrip(t);
    EscapeValueFixed(t)
  }

  /** A default value as the corrected pipeline substitutes it, with the
      same escape as an argument (no quote trimming): every `$` escaped,
      and decoding gives back the value with its mentions defused. */
  function EscapeDefaultFixed(s: string): (r: string)
    ensures Escaped(r) && Marks(r) == 0
    ensures JsonSafeText(s) ==> UnescapeJsonString(Decode(r)) == Some(ReplaceChar(s, '@', ['@', MARK]))
  {
    EscapeValueFixedIsCharwise(s);
    EscapeFixedRefEscaped(s);
    EscapedHasNoMarks(EscapeValueFixed(s));
    FixedRoundTrip(s);
    EscapeValueFixed(s)
  }
}

=== FILE: wiki_commands.dfy ===
/** The wiki commands: reading an optional language in front of the
    search words, and choosing between a search and a namespace's main
    page. The search itself and the display go through the network and
    are represented by what the command would ask for. */
module WikiCommands {
  import opened Wrappers
  import opened Strings
  import opened WikiStructures

  /** The framework's argument cursor: the words of the message after the
      command name, and how many of them have been read. */
  datatype Args = Args(tokens: seq<string>, offset: nat)

  /** `args.single::<String>()`: the next word, and the cursor moved past
      it; nothing, and the cursor unmoved, at the end. */
  function Single(a: Args): (r: (Option<string>, Args))
    ensures a.offset < |a.tokens| ==> r == (Some(a.tokens[a.offset]), a.(offset := a.offset + 1))
    ensures a.offset >= |a.tokens| ==> r == (None, a)
  {
    if a.offset < |a.tokens| then (Some(a.tokens[a.offset]), a.(offset := a.offset + 1)) else (None, a)
  }

  /** `args.rewind()`: one word back, unless at the start. */
  function Rewind(a: Args): (r: Args)
    ensures r.tokens == a.tokens && r.offset == if a.offset == 0 then 0 else a.offset - 1
  {
    if a.offset == 0 then a else a.(offset := a.offset - 1)
  }

  /** `args.is_empty()`: no word left to read. */
  predicate IsEmpty(a: Args) {
    a.offset >= |a.tokens|
  }

  /** The words left to read. */
  function Rest(a: Args): seq<string> {
    if a.offset <= |a.tokens| then a.tokens[a.offset..] else []
  }

  /** The short and the long word that select a language. */
  function LangAbbrev(l: Lang): string {
    match l
    case En => "en" case Fr => "fr" case Es => "es" case De => "de"
    case Nl => "nl" case Zh => "zh" case Ru => "ru" case Ja => "ja"
  }

  function LangWord(l: Lang): string {
    match l
    case En => "english" case Fr => "french" case Es => "spanish" case De => "german"
    case Nl => "dutch" case Zh => "chinese" case Ru => "russian" case Ja => "japanese"
  }

  /** The match in `lang`: the language a lower-case word names. */
  function LangOfWord(w: string): (r: Option<Lang>)
    ensures r.Some? ==> w == LangAbbrev(r.value) || w == LangWord(r.value)
  {
    if w == "en" || w == "english" then Some(En)
    else if w == "fr" || w == "french" then Some(Fr)
    else if w == "es" || w == "spanish" then Some(Es)
    else if w == "de" || w == "german" then Some(De)
    else if w == "nl" || w == "dutch" then Some(Nl)
    else if w == "zh" || w == "chinese" then Some(Zh)
    else if w == "ru" || w == "russian" then Some(Ru)
    else if w == "ja" || w == "japanese" then Some(Ja)
    else None
  }

  /** Both words of every language are recognised, as that language. */
  lemma LangWordsRecognised(l: Lang)
    ensures LangOfWord(LangAbbrev(l)) == Some(l)
    ensures LangOfWord(LangWord(l)) == Some(l)
  {
    match l
    case En =>
    case Fr => assert LangAbbrev(l)[0] != 'e' && LangWord(l)[0] != 'e';
    case Es => assert LangAbbrev(l)[1] != 'n' && LangWord(l)[0] != 'e' && LangWord(l)[0] != 'f';
    case De => assert LangAbbrev(l)[0] != 'e' && LangAbbrev(l)[0] != 'f' && LangWord(l)[0] != 'e';
    case Nl => assert LangAbbrev(l)[0] == 'n' && LangWord(l)[0] == 'd' && LangWord(l)[1] == 'u';
    case Zh => assert LangAbbrev(l)[0] == 'z' && LangWord(l)[0] == 'c';
    case Ru => assert LangAbbrev(l)[0] == 'r' && LangWord(l)[0] == 'r';
    case Ja => assert LangAbbrev(l)[0] == 'j' && LangWord(l)[0] == 'j';
  }

  /** `lang`: read one word and look it up after lower-casing it. A word
      that names no language, or no word at all, gives English and sets
      the flag that tells the caller to give the word back. */
  function ParseLang(a: Args): (r: (Lang, Args, bool))
    ensures r.1 == Single(a).1
    ensures var w := LowerAscii(Single(a).0.GetOr(""));
      (r.2 <==> LangOfWord(w).None?) && (!r.2 ==> Some(r.0) == LangOfWord(w))
    ensures r.2 ==> r.0 == DefaultLang()
  {
    var (word, rest) := Single(a);
    match LangOfWord(LowerAscii(word.GetOr("")))
    case Some(l) => (l, rest, false)
    case None => (En, rest, true)
  }

  /** What a wiki command asks for: a search in a namespace of a wiki, or
      the display of a page. */
  datatype WikiAction =
    | Search(ns: Namespace, wiki: Wikis, words: seq<string>)
    | Show(page: GenericPage, wiki: Wikis)

  /** `lotr_wiki` on the words after the command name: with a language
      word, that language's wiki and the words after it; without one,
      the English wiki and all the words, the first included. No words
      left shows the namespace's main page. */
  function LotrWiki(tokens: seq<string>, ns: Namespace, username: string): (r: WikiAction)
    ensures |tokens| == 0 ==> r == Show(MainPage(ns, LotrMod(En), username), LotrMod(En))
    ensures |tokens| > 0 && LangOfWord(LowerAscii(tokens[0])).None? ==> r == Search(ns, LotrMod(En), tokens)
    ensures |tokens| > 0 && LangOfWord(LowerAscii(tokens[0])).Some? ==>
      var wiki := LotrMod(LangOfWord(LowerAscii(tokens[0])).value);
      r == if |tokens| == 1 then Show(MainPage(ns, wiki, username), wiki) else Search(ns, wiki, tokens[1..])
  {
    var (lang, rest, default) := ParseLang(Args(tokens, 0));
    var wiki := LotrMod(lang);
    var args := if default then Rewind(rest) else rest;
    if !IsEmpty(args) then Search(ns, wiki, Rest(args))
    else Show(MainPage(ns, wiki, username), wiki)
  }

  /** `tolkien` and `minecraft`: no language word; no words shows the
      wiki's default page, anything else searches its articles. */
  function OtherWiki(wiki: Wikis, tokens: seq<string>, username: string): (r: WikiAction)
    requires wiki == TolkienGateway || wiki == Minecraft
    ensures |tokens| == 0 ==> r == Show(MainPage(Page, wiki, username), wiki)
    ensures |tokens| > 0 ==> r == Search(Page, wiki, tokens)
  {
    var args := Args(tokens, 0);
    if !IsEmpty(args) then Search(Page, wiki, Rest(args))
    else Show(Default(wiki, username), wiki)
  }

  /** `tolkien` and `minecraft` follow the rule of `lotr_wiki` for the
      article namespace, with their own wiki and no language word. */
  lemma OtherWikiIsLotrWikiRule(wiki: Wikis, tokens: seq<string>, username: string)
    requires wiki == TolkienGateway || wiki == Minecraft
    requires |tokens| == 0 || LangOfWord(LowerAscii(tokens[0])).None?
    ensures LotrWiki(tokens, Page, username).Search? ==>
      OtherWiki(wiki, tokens, username) == Search(Page, wiki, LotrWiki(tokens, Page, username).words)
    ensures LotrWiki(tokens, Page, username).Show? ==>
      OtherWiki(wiki, tokens, username) == Show(MainPage(Page, wiki, username), wiki)
  {
  }

  /** What the search reply is: the page found, or a message naming the
      namespace. */
  datatype SearchReply = Found(page: GenericPage) | NotFound(text: string)

  function WikiSearchReply(ns: Namespace, found: Option<GenericPage>): (r: SearchReply)
    ensures found.Some? ==> r == Found(found.value)
    ensures found.None? ==> r == NotFound("Couldn't find a " + NamespaceName(ns) + " for the given name!")
  {
    match found
    case Some(p) => Found(p)
    case None => NotFound("Couldn't find a " + NamespaceName(ns) + " for the given name!")
  }

  datatype RandomReply = RandomShown(page: GenericPage, wiki: Wikis) | QueryFailed(text: string)

  /** `random`: the random page's title turned into a page of the English
      mod wiki, or a fixed message when the query failed. */
  function RandomCommand(title: Option<string>): (r: RandomReply)
    ensures title.Some? ==> (r.RandomShown? && r.wiki == LotrMod(En) && r.page.title == title.value
      && StartsWith(r.page.link, Site(r.wiki) + "/"))
    ensures title.None? ==> r == QueryFailed("Couldn't execute query!")
  {
    match title
    case Some(t) => RandomShown(FromRandomPage(t), LotrMod(En))
    case None => QueryFailed("Couldn't execute query!")
  }
}

=== FILE: wiki_structures.dfy ===
/** The wiki tables: languages of the Lord of the Rings Mod wiki, the four
    wikis with their addresses and names, the namespaces a search can be
    limited to, and the pages shown when there is nothing to search for. */
module WikiStructures {
  import opened Wrappers
  import opened Strings

  datatype Lang = En | Fr | De | Nl | Zh | Ru | Es | Ja

  datatype Wikis = EoA | LotrMod(lang: Lang) | TolkienGateway | Minecraft

  datatype Namespace = Page | User | File | Template | Category | Blog

  /** What the bot shows for a page: title, optional description, link. */
  datatype GenericPage = GenericPage(title: string, desc: Option<string>, link: string)

  /** `Lang::default()`. */
  function DefaultLang(): (l: Lang)
    ensures l == En
  {
    En
  }

  /** `Display for Lang`: the path segment of the language's wiki; the
      English wiki sits at the root and shows as "wiki". */
  function LangCode(l: Lang): (r: string)
    ensures l == En <==> r == "wiki"
    ensures l != En ==> |r| == 2
  {
    match l
    case En => "wiki"
    case Fr => "fr"
    case De => "de"
    case Nl => "nl"
    case Zh => "zh"
    case Ru => "ru"
    case Es => "es"
    case Ja => "ja"
  }

  /** No two languages display alike. */
  lemma LangCodesDistinct(a: Lang, b: Lang)
    ensures LangCode(a) == LangCode(b) <==> a == b
  {
  }

  /** `Lang::main`: the title of the language's wiki. */
  function LangMain(l: Lang): string {
    match l
    case En => "The Lord of the Rings Minecraft Mod Wiki"
    case Fr => "Wiki du Mod Minecraft Seigneur des Anneaux"
    case De => "Der Herr der Ringe Minecraft Mod Wiki"
    case Nl => "In de ban van de Ring Minecraft Mod wiki"
    case Zh => "魔戒我的世界模组百科"
    case Ru => "Средиземье в Minecraft"
    case Es => "Wiki Lotrminecraftmod"
    case Ja => "マインクラフト　指輪物語MOD Wiki"
  }

  /** The languages whose welcome greets the user by name. */
  predicate GreetsByName(l: Lang) {
    l != Zh && l != Es && l != Ja
  }

  /** The text around the user's name in those languages. */
  function Greeting(l: Lang): (string, string)
    requires GreetsByName(l)
  {
    match l
    case En => ("Welcome, ", ", to The Lord of the Rings Minecraft Mod Wiki, the official public wiki for everything related to the Lord of the Rings Mod.")
    case Fr => ("Bienvenue, ", ", sur le Wiki du Mod Seigneur des Anneaux pour Minecraft, un wiki public pour tout ce qui concerne le Mod Seigneur des Anneaux.")
    case De => ("Willkommen, ", ", im Der Herr der Ringe Minecraft Mod Wiki, einem öffentlichem Wiki für alles, was sich auf die Der Herr der Ringe Mod bezieht.")
    case Nl => ("Welkom, ", ", op de In de ban van de Ring Minecraft Mod wiki, de officiële openbare Nederlandstalige wiki voor alles in verband met de In de ban van de Ring Mod.")
    case Ru => ("Добро пожаловать, ", ", на Вики, связанную с модом Lord of the Rings Mod.")
  }

  /** The fixed welcome of the languages that do not name the user. */
  function FixedWelcome(l: Lang): string {
    match l
    case Zh => "欢迎你来到魔戒我的世界模组百科！"
    case Es => "Bienvenidos a Wiki Lotrminecraftmod\nEl wiki sobre el mod El Señor de los Anillos para Minecraft que todos pueden editar."
    case _ => "このサイトはThe Lord of The Rings Minecraft Mod Wiki、指輪物語MODに関する公式Wikiの日本語版です。FANDOMのアカウントを作成して言語設定を日本語にすることで、メニュー周りも日本語になり読みやすくなります。"
  }

  /** `Lang::maindesc`: the welcome text, with the user's name between
      the two parts of the greeting when the language has one. */
  function LangWelcome(l: Lang, username: string): (r: string)
    ensures GreetsByName(l) ==> r == Greeting(l).0 + username + Greeting(l).1
    ensures !GreetsByName(l) ==> r == FixedWelcome(l)
  {
    if GreetsByName(l) then Greeting(l).0 + username + Greeting(l).1 else FixedWelcome(l)
  }

  /** The titles of the special pages, per language (`users`, `files`,
      `templates`, `categories`, `blogs`). */
  function SpecialTitle(l: Lang, ns: Namespace): string
    requires ns != Page
  {
    match ns
    case User =>
      (match l
       case En => "Users" case Fr => "Liste des utilisateurs" case De => "Benutzer"
       case Nl => "Gebruikerslijst" case Zh => "用户列表" case Ru => "Список участников"
       case Es => "Lista Usuarios" case Ja => "登録利用者一覧")
    case File =>
      (match l
       case En => "List Files" case Fr => "Liste des fichiers" case De => "Dateien"
       case Nl => "Bestandenlijst" case Zh => "文件列表" case Ru => "Список файлов"
       case Es => "Lista Imágenes" case Ja => "ファイル一覧")
    case Template =>
      (match l
       case En => "Templates" case Fr => "Modèles" case De => "Vorlagen"
       case Nl => "Sjablonen" case Zh => "Templates" case Ru => "Шаблоны"
       case Es => "Plantillas" case Ja => "テンプレート")
    case Category =>
      (match l
       case En => "Categories" case Fr => "Catégories" case De => "Kategorien"
       case Nl => "Categorieën" case Zh => "页面分类" case Ru => "Категории"
       case Es => "Categorías" case Ja => "カテゴリ")
    case Blog =>
      (match l
       case En => "Recent posts" case Fr => "Posts récents" case De => "Letzte Beiträge"
       case Nl => "Recente berichten" case Zh => "最近的职位" case Ru => "Последние сообщения"
       case Es => "Entradas recientes" case Ja => "最近の投稿")
  }

  const LOTR_SITE := "https://lotrminecraftmod.fandom.com"
  const API_SUFFIX := "/api.php?"

  /** `Wikis::site`. Each non-English mod wiki lives one path segment
      below the English one, the segment being the language's display
      code. */
  function Site(w: Wikis): (r: string)
    ensures w.LotrMod? && w.lang != En ==> r == LOTR_SITE + "/" + LangCode(w.lang)
    ensures w.LotrMod? ==> StartsWith(r, LOTR_SITE)
  {
    match w
    case EoA => "https://erasofarda.fandom.com"
    case LotrMod(lang) =>
      (match lang
       case En => "https://lotrminecraftmod.fandom.com"
       case Fr => "https://lotrminecraftmod.fandom.com/fr"
       case De => "https://lotrminecraftmod.fandom.com/de"
       case Nl => "https://lotrminecraftmod.fandom.com/nl"
       case Zh => "https://lotrminecraftmod.fandom.com/zh"
       case Ru => "https://lotrminecraftmod.fandom.com/ru"
       case Es => "https://lotrminecraftmod.fandom.com/es"
       case Ja => "https://lotrminecraftmod.fandom.com/ja")
    case TolkienGateway => "https://tolkiengateway.net"
    case Minecraft => "https://minecraft.gamepedia.com"
  }

  /** `Wikis::get_api`: the site's address followed by "/api.php?", except
      for Tolkien Gateway, whose API lives under "/w/" and is reached over
      plain http. */
  function GetApi(w: Wikis): string {
    match w
    case EoA => "https://erasofarda.fandom.com/api.php?"
    case LotrMod(lang) =>
      (match lang
       case En => "https://lotrminecraftmod.fandom.com/api.php?"
       case Fr => "https://lotrminecraftmod.fandom.com/fr/api.php?"
       case De => "https://lotrminecraftmod.fandom.com/de/api.php?"
       case Nl => "https://lotrminecraftmod.fandom.com/nl/api.php?"
       case Zh => "https://lotrminecraftmod.fandom.com/zh/api.php?"
       case Ru => "https://lotrminecraftmod.fandom.com/ru/api.php?"
       case Es => "https://lotrminecraftmod.fandom.com/es/api.php?"
       case Ja => "https://lotrminecraftmod.fandom.com/ja/api.php?")
    case TolkienGateway => "http://tolkiengateway.net/w/api.php?"
    case Minecraft => "https://minecraft.gamepedia.com/api.php?"
  }

  /** The API address is the site's address followed by "/api.php?" on
      every wiki but Tolkien Gateway. */
  lemma ApiBelowSite(w: Wikis)
    ensures w != TolkienGateway <==> GetApi(w) == Site(w) + API_SUFFIX
  {
    match w
    case TolkienGateway =>
      assert GetApi(w)[4] != (Site(w) + API_SUFFIX)[4];
    case LotrMod(l) => ModApiBelowSite(l);
    case EoA => assert GetApi(EoA) == Site(EoA) + API_SUFFIX;
    case Minecraft => assert GetApi(Minecraft) == Site(Minecraft) + API_SUFFIX;
  }

  lemma ModApiBelowSite(l: Lang)
    ensures GetApi(LotrMod(l)) == Site(LotrMod(l)) + API_SUFFIX
  {
    match l
    case En => assert GetApi(LotrMod(En)) == Site(LotrMod(En)) + API_SUFFIX;
    case Fr => assert GetApi(LotrMod(Fr)) == Site(LotrMod(Fr)) + API_SUFFIX;
    case De => assert GetApi(LotrMod(De)) == Site(LotrMod(De)) + API_SUFFIX;
    case Nl => assert GetApi(LotrMod(Nl)) == Site(LotrMod(Nl)) + API_SUFFIX;
    case Zh => assert GetApi(LotrMod(Zh)) == Site(LotrMod(Zh)) + API_SUFFIX;
    case Ru => assert GetApi(LotrMod(Ru)) == Site(LotrMod(Ru)) + API_SUFFIX;
    case Es => assert GetApi(LotrMod(Es)) == Site(LotrMod(Es)) + API_SUFFIX;
    case Ja => assert GetApi(LotrMod(Ja)) == Site(LotrMod(Ja)) + API_SUFFIX;
  }

  /** `Wikis::name`: a mod wiki is named by its language's title. */
  function Name(w: Wikis): (r: string)
    ensures w.LotrMod? ==> r == LangMain(w.lang)
  {
    match w
    case EoA => " The Eras of Arda Wiki"
    case LotrMod(lang) => LangMain(lang)
    case TolkienGateway => "Tolkien Gateway"
    case Minecraft => "Official Minecraft Wiki"
  }

  /** `From<&Namespace> for &str`: the namespace numbers given to the
      search API ("0|4" searches articles and project pages together). */
  function NamespaceCode(ns: Namespace): string {
    match ns
    case Page => "0|4"
    case User => "2"
    case File => "6"
    case Template => "10"
    case Category => "14"
    case Blog => "500"
  }

  /** Distinct namespaces search distinct API namespaces. */
  lemma NamespaceCodesDistinct(a: Namespace, b: Namespace)
    ensures NamespaceCode(a) == NamespaceCode(b) <==> a == b
  {
  }

  /** `Display for Namespace`, used in the "not found" reply. */
  function NamespaceName(ns: Namespace): string {
    match ns
    case Page => "page"
    case User => "user"
    case File => "file"
    case Template => "template"
    case Category => "category"
    case Blog => "blog post"
  }

  /** The address of a namespace's special page below a site. */
  function SpecialPath(ns: Namespace): string
    requires ns != Page
  {
    match ns
    case User => "/Special:Listusers"
    case File => "/Special:ListFiles"
    case Template => "/Special:PrefixIndex?namespace=10"
    case Category => "/Special:Categories"
    case Blog => "/Blog:Recent_posts"
  }

  /** Which of `Default` and `MainPage` may still call the other: the mod
      wiki's default page asks `MainPage`, which answers directly; every
      other wiki's `MainPage` asks `Default`, which answers directly. */
  function CallRank(w: Wikis, fromDefault: bool): nat {
    if w.LotrMod? == fromDefault then 1 else 0
  }

  const EOA_DESC := "Eras of Arda is a group of dedicated individuals who seek to expand on upon the LOTRMod to include the First and Second ages of Middle Earth. The First Age Addon adds new items, armors, factions, npcs and so much more."
  const TOLKIEN_WELCOME := ", to Tolkien Gateway,\nthe J.R.R. Tolkien encyclopedia that anyone can edit."
  const MINECRAFT_WELCOME := ", to the Official Minecraft Wiki,\na publicly accessible and editable wiki for information on Minecraft and related subjects."

  /** `Wikis::default`: the page shown for the wiki itself. */
  function Default(w: Wikis, username: string): (p: GenericPage)
    ensures p.title == Name(w)
    ensures p.link == Site(w)
    ensures p.desc.Some?
    decreases CallRank(w, true)
  {
    match w
    case EoA =>
      GenericPage(Name(w),
        Some(EOA_DESC),
        Site(w))
    case LotrMod(_) => MainPage(Page, w, username)
    case TolkienGateway =>
      GenericPage(Name(w),
        Some("Welcome, " + username + TOLKIEN_WELCOME),
        Site(w))
    case Minecraft =>
      GenericPage(Name(w),
        Some("Welcome, " + username + MINECRAFT_WELCOME),
        Site(w))
  }

  /** `Namespace::main_page`: what a command shows for a namespace when
      there is nothing to search for. Tolkien Gateway and Minecraft show
      their default page whatever the namespace; for the other two, the
      article namespace shows the wiki's front page and every other
      namespace a special page below the wiki's site, without description.
      The Eras of Arda wiki has English titles only. */
  function MainPage(ns: Namespace, w: Wikis, username: string): (p: GenericPage)
    ensures (w == TolkienGateway || w == Minecraft) ==> p == Default(w, username)
    ensures ns == Page ==> p.link == Site(w) && p.desc.Some?
    ensures ns != Page && (w == EoA || w.LotrMod?) ==>
      p.desc.None? && p.link == Site(w) + SpecialPath(ns) && StartsWith(p.link, Site(w))
      && p.title == SpecialTitle(if w == EoA then En else w.lang, ns)
    ensures ns == Page && w.LotrMod? ==>
      p == GenericPage(LangMain(w.lang), Some(LangWelcome(w.lang, username)), Site(w))
    decreases CallRank(w, false)
  {
    match w
    case EoA =>
      if ns == Page then Default(EoA, username)
      else
        var link := Site(w) + SpecialPath(ns);
        assert link[..|Site(w)|] == Site(w);
        GenericPage(SpecialTitle(En, ns), None, link)
    case LotrMod(lang) =>
      if ns == Page then GenericPage(LangMain(lang), Some(LangWelcome(lang, username)), Site(w))
      else
        var link := Site(w) + SpecialPath(ns);
        assert link[..|Site(w)|] == Site(w);
        GenericPage(SpecialTitle(lang, ns), None, link)
    case _ => Default(w, username)
  }

  /** `From<RandomPage> for GenericPage`: the title kept, a fixed
      description, and a link on the English mod wiki made of the title
      without its surrounding whitespace, spaces turned to underscores. */
  function FromRandomPage(title: string): (p: GenericPage)
    ensures p.title == title && p.desc == Some("Random page...")
    ensures StartsWith(p.link, Site(LotrMod(En)) + "/")
    ensures var path := p.link[|Site(LotrMod(En))| + 1..];
      |path| == |Trim(title)|
      && forall i :: 0 <= i < |path| ==> path[i] == if Trim(title)[i] == ' ' then '_' else Trim(title)[i]
  {
    var t := Trim(title);
    var path := ReplaceAll(t, " ", "_");
    ReplaceCharIsReplaceAll(t, ' ', "_");
    ReplaceCharSwap(t, ' ', '_');
    var prefix := Site(LotrMod(En)) + "/";
    var link := prefix + path;
    assert link[..|prefix|] == prefix && link[|prefix|..] == path;
    GenericPage(title, Some("Random page..."), link)
  }
}

=== FILE: wrappers.dfy ===
/** The optional value used wherever the bot reads something that may be
    missing: a database row, a parsed argument, a JSON parse. */
module Wrappers {

  datatype Option<+T> = None | Some(value: T) {

    /** The wrapped value, or `default` when there is none (Rust's `unwrap_or`). */
    function GetOr(default: T): T {
      match this
      case Some(v) => v
      case None => default
    }
  }
}
